=== FILE: README.md ===
# Ancestral-state reconciliation in `baltic_utils.py`, modelled in Dafny

`scripts/baltic_utils.py` has two functions:

- `reconstruct_ancestral_states` prepares an alignment and a tree for ClonalFrameML and turns its output back into named sequences.
  - It sanitises and anonymises the alignment: every non-nucleotide character becomes `N`, and sequence i is renamed `str(i)`.
  - It renames the tree's tips the same way.
  - It reads ClonalFrameML's position cross-reference and its compacted ancestral calls.
  - It rebuilds the full sequence of every tip and of every internal node of the labelled tree.
  - It names the tips back.
- `annotate_tree` carries the internal-node labels of a labelled tree onto another tree with the same topology and tips.
  - It attaches each node's sequence.
  - It records, on every branch, the sites where the node differs from its parent.

The model follows the program's structure, one module per step:

| module | file | step |
|---|---|---|
| `Wrappers` | wrappers.dfy | `Option`, `Result` and the exceptions the code can raise (`KeyError`, `IndexError`, `ValueError`, a name read before any header, no fixpoint) |
| `Decimal` | decimal.dfy | Python's `str(n)` for indices and sites |
| `Sanitize` | sanitize.dfy | the nucleotide filter (lines 16-32) |
| `Rename` | rename.dfy | `newNames` / `oldNames` and the anonymised alignment (lines 18-33) |
| `Arena` | arena.dfy | the tree as baltic's `Objects` list; renaming tips through a dictionary (lines 44-45, 93-94) |
| `CrossRef` | crossref.dfy | `line.split(',')`, Python's `int()` and the cross-reference (line 58) |
| `Fasta` | fasta.dfy | the FASTA writer (line 38), the reader of the calls (lines 63-70) and the reader of the renamed alignment (lines 73-79) |
| `Assemble` | assemble.dfy | tip rows and `base_seq` (lines 72-88), internal nodes (lines 90-92) |
| `Pipeline` | pipeline.dfy | `reconstruct_ancestral_states` end to end, with files as values |
| `Relabel` | relabel.dfy | relationships, reset and label propagation (lines 172-184) |
| `Mutations` | mutations.dfy | the per-branch differences and their `'%s%d%s'` form (lines 189-197) |
| `Annotate` | annotate.dfy | `annotate_tree` end to end |

**How the tree is represented.**
- A tree is a `seq<Node>` in baltic's `Objects` order, which is preorder: a parent comes before its children.
- Each node holds its parent's index, its kind and an optional `label` trait.
  - The kind is a tip with a name, or an internal node.
  - Parent `-1` stands for baltic's placeholder root object. That object is not in `Objects` and has no traits.
- A dictionary keyed by position, such as `cross_ref`, is a `seq`. Other dictionaries are `map`s.
- A Python exception is a `Failure` carrying the matching `Fault`.

**Behaviour of the code worth knowing.** The model keeps each of these as the code has it:

- **Cross-reference length.** Nothing checks that the cross-reference has one entry per alignment column. A shorter one leaves the remaining tip columns unchanged, and internal nodes get one column per entry (`Assemble.ReconstructedLengths`).
- **Mutation order.** Mutations are written child base first, then the 1-based site, then the parent base. This is the reverse of the usual ancestral-first notation.
- **Invariant columns of internal nodes.** The comments at lines 72 and 84 call `base_seq` the invariant sequence. In fact an internal node takes its invariant columns from the first alignment row, not from a consensus. This holds because `base_seq` grows by one entry per column for every row, and only its first L entries are read (`Assemble.InternalInvariantColumnsFromFirstRow`). When all rows agree there, the choice does not matter (`Assemble.InternalInvariantColumnsConsensus`).
- **Duplicate ids.**
  - `newNames` keeps the last index of a duplicated id.
  - `oldNames` keeps every index.
  - So `oldNames[newNames[id]] == id` still holds, but the two maps are not inverse bijections.
- **Negative codes.** A negative cross-reference code counts as invariant for tips, because their test is `> 0`. For internal nodes it counts as variable, because their test is `== 0`, and it indexes the call string from the end, as Python does (`Assemble.ReconstructInternal`).
- **Child order.** `annotate_tree` matches nodes by name, not by position. The target tree may list children in another order than the labelled tree. `Relabel.ReconcileRecoversLabels` is stated for any target that a map `sigma` places in the labelled tree: a tip at the tip of the same name, an internal node at an internal node, and parents at parents.

## Model

| member | source | states |
|---|---|---|
| Sanitize.SanitizeBases | scripts/baltic_utils.py:16-32 | the cleaned sequence has the input's length, only the eleven accepted characters, every accepted character where it was, and `N` wherever the input had anything else |
| Sanitize.SanitizeFixesExactlyClean | scripts/baltic_utils.py:29-32 | sanitising leaves a sequence unchanged exactly when all its characters are already accepted |
| Sanitize.SanitizeIdempotent | scripts/baltic_utils.py:29-32 | sanitising twice is sanitising once |
| Sanitize.SanitizedLacks | scripts/baltic_utils.py:16 | a character outside the alphabet (the FASTA header mark included) never survives sanitising |
| Decimal.NatToString | scripts/baltic_utils.py:22-24 | `str(i)` is a non-empty digit string without a leading zero, and it is `"0"` exactly for 0 |
| Decimal.DecimalRoundTrip | scripts/baltic_utils.py:22-24 | reading the digits of `str(n)` gives back n |
| Decimal.NatToStringInjective | scripts/baltic_utils.py:22-23 | distinct indices get distinct anonymised names |
| Rename.BuildNameMaps | scripts/baltic_utils.py:18-23 | `newNames` has a key for exactly the ids of the alignment |
| Rename.OldNamesByPosition | scripts/baltic_utils.py:21-23 | `oldNames[str(i)]` is the id of the i-th sequence, duplicates included |
| Rename.OldNamesKeys | scripts/baltic_utils.py:20-23 | `oldNames` has no key other than `str(0)`..`str(n-1)` |
| Rename.NewNamesLastPosition | scripts/baltic_utils.py:21-22 | `newNames[id]` is `str(i)` for the last position i that holds `id` |
| Rename.NameMapsInverse | scripts/baltic_utils.py:21-23 | `oldNames[newNames[id]] == id` for every input id, even when ids repeat |
| Rename.Anonymise | scripts/baltic_utils.py:18-33 | the i-th renamed record is `str(i)` with the sanitised bases, one per input record, and the maps are those of the input ids |
| Rename.AnonymiseRoundTrip | scripts/baltic_utils.py:21-24 | the new id of every record leads back through `oldNames` to its original id |
| Fasta.FastaLines | scripts/baltic_utils.py:37-38 | each record is written as a header line `>id` followed by its sequence line, in order |
| Fasta.ParseCallsFrom | scripts/baltic_utils.py:63-70 | reading fails exactly when a sequence line comes before any header; every key read is a header seen or a key already present |
| Fasta.ReadWrittenFasta | scripts/baltic_utils.py:63-70 | what the FASTA writer produced reads back as the id-to-sequence dictionary, a later duplicate replacing an earlier one |
| Fasta.ParseCalls | scripts/baltic_utils.py:63-70 | reading the calls fails exactly when the first line is not a header; every key of the result is the name on some header line |
| Fasta.SequenceLinesOverwrite | scripts/baltic_utils.py:68-70 | sequence lines under one header each replace the entry, so the last one stays |
| Fasta.MultiLineRecordKeepsLastLine | scripts/baltic_utils.py:65-70 | a record spread over several sequence lines keeps only its last line, whatever was read before it |
| Fasta.ReadRowsFrom | scripts/baltic_utils.py:73-79 | the renamed alignment read back yields at most one row per line, and the only failure is a sequence line before any header |
| Fasta.ReadRowsOfWrittenFasta | scripts/baltic_utils.py:73-79 | the written renamed alignment reads back record for record when no sequence contains `>` |
| Arena.Name | scripts/baltic_utils.py:173 | `name(k)` is defined exactly for tips and for labelled internal nodes (otherwise `traits['label']` raises), and a tip's name is its own |
| Arena.RenameLeaves | scripts/baltic_utils.py:44-45 | renaming succeeds exactly when every tip name is a key; it then changes only tip names, each to its image; otherwise it raises the KeyError of the first unknown tip |
| Arena.FirstUnknownTip | scripts/baltic_utils.py:44-45 | the tip that raises is unknown and no earlier tip is |
| Arena.RenameLeavesRoundTrip | scripts/baltic_utils.py:93-94 | renaming tips through one map and then through a map that undoes it restores the tree |
| CrossRef.Split | scripts/baltic_utils.py:58 | `split(',')` gives one more piece than there are commas, none containing a comma |
| CrossRef.JoinSplit | scripts/baltic_utils.py:58 | joining the pieces with commas gives back the line |
| CrossRef.SplitJoin | scripts/baltic_utils.py:58 | splitting a comma-join of comma-free pieces gives back the pieces |
| CrossRef.ReadSigned | scripts/baltic_utils.py:58 | a stripped token is accepted exactly when it is an optional sign followed by a digit run; a rejected one is a ValueError carrying the original token; only a leading `-` gives a negative value |
| CrossRef.ParseInt | scripts/baltic_utils.py:58 | `int(token)` succeeds exactly when the token, stripped of whitespace, is an integer literal; otherwise it raises a ValueError carrying the token |
| CrossRef.ReadSignedRoundTrip | scripts/baltic_utils.py:58 | a stripped token written by `str(x)` is read by `int()` as x, for negative x too |
| CrossRef.ParseIntRoundTrip | scripts/baltic_utils.py:58 | `int()` reads back what `str()` wrote, with or without the trailing newline `readline` keeps |
| CrossRef.ParseTokens | scripts/baltic_utils.py:58 | converting the tokens succeeds exactly when each one is an integer, and the i-th value is the i-th token's |
| CrossRef.ParseTokensReportsFirstBadToken | scripts/baltic_utils.py:58 | a failed conversion reports the ValueError of the first bad token, all earlier tokens being good |
| CrossRef.ParseCrossRef | scripts/baltic_utils.py:57-58 | the cross-reference has keys 0..n-1 for n comma-separated tokens, and key i holds the value of token i |
| CrossRef.CrossRefRoundTrip | scripts/baltic_utils.py:57-58 | a line of codes as the external tool writes it, read with or without its newline, gives back the codes |
| Assemble.PyIndex | scripts/baltic_utils.py:92 | Python indexing succeeds exactly for `-len(s) <= k < len(s)` |
| Assemble.OutputName | scripts/baltic_utils.py:87 | naming back fails exactly for a name without `NODE_` that is not a key of `oldNames` |
| Assemble.TipColumn | scripts/baltic_utils.py:79-84 | one column of a tip row succeeds exactly when the row reaches it and, for a variable column, the tip has calls reaching the code |
| Assemble.TipColumns | scripts/baltic_utils.py:79-84 | the first n columns succeed exactly when each does, and give each column's base and `base_seq` contribution |
| Assemble.ReconstructTip | scripts/baltic_utils.py:78-85 | a tip row keeps its length and its bases at invariant columns and past the cross-reference, takes `SNPs[name][code-1]` at variable columns, and contributes its base or `N` to `base_seq`; it fails exactly when some column cannot be filled |
| Assemble.NodeColumn | scripts/baltic_utils.py:92 | one column of an internal node succeeds exactly when `base_seq` reaches it (code 0) or the node's calls can be indexed at `code-1` |
| Assemble.NodeColumns | scripts/baltic_utils.py:92 | the first n columns of an internal node succeed exactly when each does |
| Assemble.ReconstructInternal | scripts/baltic_utils.py:92 | an internal node has one base per cross-reference entry: `base_seq` at code 0, its own call at `code-1` for a positive code, and for a negative code the call that far from the end of the call string |
| Assemble.AssembleTips | scripts/baltic_utils.py:72-88 | the tip pass succeeds exactly when every row can be rebuilt and named back, writes one record per row, and leaves L entries in `base_seq` per row |
| Assemble.AssembleTipsRow | scripts/baltic_utils.py:73-88 | row k is written under its restored name with its rebuilt bases |
| Assemble.AssembleTipsRows | scripts/baltic_utils.py:73-88 | every row is written under its restored name with its rebuilt bases |
| Assemble.AssembleTipsBaseSeq | scripts/baltic_utils.py:79-84 | the first L entries of `base_seq` are the first row's bases, with `N` at variable columns |
| Assemble.AssembleInternal | scripts/baltic_utils.py:90-92 | the internal pass succeeds exactly when every internal node is labelled and can be rebuilt; it writes one record per internal node in `Objects` order, under its label |
| Assemble.NodeColumnsReadOnlyInvariantColumns | scripts/baltic_utils.py:92 | two `base_seq`s that agree at the invariant columns give the same internal sequences |
| Assemble.InternalInvariantColumnsFromFirstRow | scripts/baltic_utils.py:72-92 | every internal node carries the first row's base at each invariant column |
| Assemble.InternalInvariantColumnsConsensus | scripts/baltic_utils.py:72-92 | where all rows agree at the invariant columns, every internal node carries that common base there |
| Assemble.ReconstructedLengths | scripts/baltic_utils.py:78-92 | tip rows keep their length, at least L; internal sequences have exactly one base per cross-reference entry |
| Pipeline.ReconstructAncestralStates | scripts/baltic_utils.py:16-94 | a run succeeds only when every tree tip is an alignment id and both output files of the external tool parse; it then writes one record per alignment row and per internal node, and gives back a labelled tree with the same number of nodes; `Pipeline.RunSucceedsExactlyWhenStepsDo` gives the converse, and the lemmas below state each of the four outputs |
| Pipeline.RunSucceedsExactlyWhenStepsDo | scripts/baltic_utils.py:16-94 | a run succeeds exactly when renaming the tree, parsing both files of the external tool, rebuilding the tips and the internal nodes, and naming the labelled tree back all succeed |
| Pipeline.RenamedInputsRoundTrip | scripts/baltic_utils.py:18-45 | the renamed alignment handed to the external tool reads back as record k named `str(k)` with the k-th sequence sanitised, and the renamed tree named back through `oldNames` is the input tree |
| Pipeline.DigitsLackInternalPrefix | scripts/baltic_utils.py:87 | an anonymised name never contains `NODE_`, so every renamed tip is named back |
| Pipeline.RowsReadBack | scripts/baltic_utils.py:73-79 | the sanitised alignment as written reads back as the anonymised records |
| Pipeline.SuccessfulRun | scripts/baltic_utils.py:16-94 | a successful run wrote the anonymised alignment and the tree with tips renamed to indices, parsed both output files, rebuilt the tips from the anonymised records and the internal nodes from their `base_seq`, wrote tips then internal nodes, and named the labelled tree's tips back |
| Pipeline.TipsKeepNamesAndInvariantColumns | scripts/baltic_utils.py:78-88 | each tip of the output is written under its original id with its original length, and keeps its sanitised bases at invariant columns and past the cross-reference |
| Pipeline.TipsTakeVariableColumnsFromCalls | scripts/baltic_utils.py:79-82 | each tip takes its variable columns from the calls under its anonymised name |
| Pipeline.InternalNodesFromFirstRecord | scripts/baltic_utils.py:72-92 | the internal nodes follow the tips, one per internal node under its label, with the first sanitised record's bases at invariant columns and one base per cross-reference entry |
| Pipeline.LabelledTreeNamedBack | scripts/baltic_utils.py:93-94 | every tip of the labelled tree is some `str(k)` and is written back as the k-th original id; nothing else changes |
| Pipeline.TreeRenameRoundTrip | scripts/baltic_utils.py:44-45 | renaming the tree's tips to indices and back restores it whenever every tip is an alignment id |
| Pipeline.UnknownTipAborts | scripts/baltic_utils.py:44-45 | a tree tip missing from the alignment aborts the run with a KeyError naming the first such tip |
| Relabel.RelationshipsUpTo | scripts/baltic_utils.py:175-176 | the map has an entry for each node with a labelled parent; each key maps to the parent's name of the last such node with that name; an unlabelled internal node with a labelled parent raises |
| Relabel.LastWinsStep | scripts/baltic_utils.py:175-176 | visiting one more node either leaves the map alone or makes that node the last one with its name |
| Relabel.RelationshipsOfLabelledTree | scripts/baltic_utils.py:172-176 | on a fully labelled tree with distinct names, every non-root node's name maps to its parent's label |
| Relabel.ClearLabels | scripts/baltic_utils.py:178-179 | after the reset no node has a label, and topology and tips are unchanged |
| Relabel.PushLabel | scripts/baltic_utils.py:183-184 | a visit labels only the parent, with `relationships[name]`, and only when the node has a name that is a key |
| Relabel.PassUpTo | scripts/baltic_utils.py:182-184 | a pass keeps topology and tips |
| Relabel.Propagate | scripts/baltic_utils.py:181-184 | the loop ends with every internal node labelled and the shape unchanged, or reports that no fixpoint was reached |
| Relabel.Reconcile | scripts/baltic_utils.py:178-184 | on success every internal node of the target is labelled and its shape is unchanged |
| Relabel.ReconcileLabelsFromMap | scripts/baltic_utils.py:183-184 | every label the reconciler leaves is a value of the relationship map |
| Relabel.ReconcileIgnoresPriorLabels | scripts/baltic_utils.py:178-179 | trees of the same shape reconcile identically, whatever labels they carried |
| Relabel.ReconcileIdempotent | scripts/baltic_utils.py:178-184 | reconciling the reconciled tree gives the same result |
| Relabel.PushLabelAgrees | scripts/baltic_utils.py:183-184 | a visit sets a parent's label to the label of that parent's image in the labelled tree |
| Relabel.PassUpToAgrees | scripts/baltic_utils.py:182-184 | a pass only sets labels that the labelled tree has at the image of the node |
| Relabel.PassUpToKeepsLabels | scripts/baltic_utils.py:182-184 | a label present during the pass stays to its end |
| Relabel.PassProgresses | scripts/baltic_utils.py:181-184 | a pass short of the fixpoint labels the last unlabelled internal node |
| Relabel.PropagateConverges | scripts/baltic_utils.py:181-184 | with as many passes as unlabelled internal nodes the loop terminates, and every label it sets is that of the node's image in the labelled tree |
| Relabel.ReconcileRecoversLabels | scripts/baltic_utils.py:172-184 | on any target with the labelled tree's topology and tips, children listed in any order, and with distinct names in the labelled tree, the reconciler terminates within as many passes as there are nodes; every internal node then has the label of its image in the labelled tree, and no tip has a label |
| Mutations.Diff | scripts/baltic_utils.py:191-197 | a branch's mutation list, taken over the `zip` length, holds only real differences, in strictly increasing site order |
| Mutations.DiffUpTo | scripts/baltic_utils.py:193-197 | every listed mutation is a real difference at its 1-based site: child base, then parent base |
| Mutations.DiffUpToAscending | scripts/baltic_utils.py:193-197 | the mutations are listed in strictly increasing site order |
| Mutations.DiffUpToSites | scripts/baltic_utils.py:193-195 | the listed sites are exactly the 1-based positions, within the compared prefix, where the sequences differ |
| Mutations.ApplyDiffUpTo | scripts/baltic_utils.py:193-197 | replaying the differences of a prefix on the parent turns that prefix into the child's and leaves the rest alone |
| Mutations.DiffReplaysChild | scripts/baltic_utils.py:189-197 | for sequences of equal length, replaying a branch's mutations on the parent gives the child |
| Mutations.DiffEmptyIffAgree | scripts/baltic_utils.py:193-196 | a branch has no mutation exactly when the sequences agree over their common length |
| Mutations.Render | scripts/baltic_utils.py:197 | a written mutation starts with the child base, ends with the parent base and has only digits between them |
| Mutations.ParseMutation | scripts/baltic_utils.py:197 | a string reads as a mutation exactly when it has a first character, at least one digit and a last character; the two characters may be anything |
| Mutations.RenderRoundTrip | scripts/baltic_utils.py:197 | a written mutation reads back as itself |
| Mutations.RenderInjective | scripts/baltic_utils.py:197 | distinct mutations are written differently |
| Annotate.AttachUpTo | scripts/baltic_utils.py:186-187 | attaching succeeds exactly when every node has a name that is a key, and gives each node `seqs[name]`; otherwise it raises the KeyError of the first node in `Objects` order that has no label or whose name is not a key |
| Annotate.BranchMutations | scripts/baltic_utils.py:189-197 | a node has a `muts` list exactly when its parent is not the placeholder and the two sequences differ; the list is then non-empty and each entry is a real difference |
| Annotate.AnnotateTree | scripts/baltic_utils.py:172-197 | annotation succeeds exactly when relationships, reconciliation and attachment do; each node then carries its reconciled label, its sequence, and the differences with its parent when there are any |
| Annotate.AnnotateFollowsLabelledTree | scripts/baltic_utils.py:172-187 | on any target with the labelled tree's topology and tips, children listed in any order, annotation succeeds exactly when every node's image in the labelled tree has a name with a sequence, and each node then carries the sequence named by its image |
| Annotate.MutationsReplay | scripts/baltic_utils.py:189-197 | a node's mutations, replayed on its parent's sequence, give its own sequence when the two have equal length |

## Left out

- Loading baltic (lines 1-6), `loadNewick`, `treeStats` and `toString` (lines 41-42, 49, 90, 97, 171) are left out. They belong to a foreign library. Trees are already-parsed `Tree` values, and the tree file ClonalFrameML labels is a parameter.
- Biopython parsing and all file handling are left out (lines 8, 21, 35-39, 47-50, 52, 57, 60-61, 73, 96-98, 102, 167-169).
  - File contents are values: the alignment as `Record`s, the calls file as lines, the cross-reference as one line, `seqs` as a map.
  - The renamed alignment is written as lines and read back as lines; the newline `strip` is implicit in that.
- The printed command and the `os.system` call to ClonalFrameML (lines 54-55) are left out. This is an external process; its three outputs are parameters of `Pipeline.ReconstructAncestralStates`.
- The commented-out code (lines 103-164) is left out, because it does not run. So are the unused parameters `include_seq` and `traits`.
- The parameter `kappa` only reaches the printed command and the call to ClonalFrameML (lines 54-55), which are left out above, so the model has no such parameter.
- Python's `int()` also accepts non-ASCII digits and whitespace. Only ASCII is modelled.
- In `annotate_tree` the top node of `Objects` (whose parent is baltic's placeholder root) pushes a label onto the placeholder, but only when it is labelled and its name is a key of `relationships` (line 183). That push is dropped, because nothing reads the placeholder's `label` trait.
- Relabel.Propagate: the source's `while` loop is unbounded. The model spends one unit of `fuel` per pass and fails with `NoFixpoint` when fuel runs out. `Relabel.ReconcileRecoversLabels` shows that as many passes as there are nodes suffice on any target with the labelled tree's topology and tips. A target whose labels never all get set makes the source loop forever; the model reports that.
- Annotate.AnnotateTree: any `seq` or `muts` traits the target tree held before the call are not modelled. Each node's `muts` is the list of this call's differences, or absent.
- Annotate.AttachUpTo: the KeyError for an unlabelled internal node carries `"label"`, the missing trait key, as baltic's `traits['label']` would raise.
- Fasta.ReadRowsFrom: its failure contract only names the error (a sequence line before any header). The exact success condition is given for the writer's own output, by `Fasta.ReadRowsOfWrittenFasta`.
- Relabel.ReconcileRecoversLabels: the target must be in preorder (`WellFormed`) with a child under every internal node, as every tree baltic loads is. The labelled tree must have distinct names; with repeated names the last node of a name wins, which `Relabel.RelationshipsUpTo` states. The map `sigma` need not be one-to-one.
- Annotate.AnnotateFollowsLabelledTree: it has the same requirements as `Relabel.ReconcileRecoversLabels`, for the same reason.
- Relabel.PassUpTo: its own contract only keeps the shape. What a pass does to labels is stated by `Relabel.PassUpToKeepsLabels`, `Relabel.PassUpToAgrees`, `Relabel.PassUpToLabelsFrom` and `Relabel.PassProgresses`.
- Mutations are kept as `Mutation` values rather than strings. Their written form is `Mutations.Render`, which `Mutations.RenderRoundTrip` and `Mutations.RenderInjective` tie to the values.

=== FILE: annotate.dfy ===
/** `annotate_tree`: labels are carried from the labelled tree onto the target tree, every node
    receives the sequence stored under its name, and every branch below the root receives the
    list of sites where its sequence differs from its parent's. */
module Annotate {
  import opened Wrappers
  import opened Arena
  import opened Relabel
  import opened Mutations

  /** A node of the annotated tree: the node with its reconciled label, its `seq` trait, and its
      `muts` trait (None when the trait is absent: the root, or a branch without differences). */
  datatype Annotated = Annotated(node: Node, bases: string, muts: Option<seq<Mutation>>)

  /** Whether every node of `u` has a name and that name is a key of `seqs`. */
  predicate Named(u: Tree, seqs: map<string, string>, n: nat)
    requires n <= |u|
  {
    forall i :: 0 <= i < n ==> Name(u[i]).Some? && Name(u[i]).value in seqs
  }

  /** Lines 186-187 over nodes 0..n-1: each node's sequence is `seqs[name]`; the first node
      without a label, or whose name is not a key, raises the KeyError. */
  function AttachUpTo(u: Tree, seqs: map<string, string>, n: nat): (r: Result<seq<string>, Fault>)
    requires n <= |u|
    ensures r.Success? <==> Named(u, seqs, n)
    ensures r.Success? ==> |r.value| == n && forall i :: 0 <= i < n ==> Name(u[i]).Some? && Name(u[i]).value in seqs && r.value[i] == seqs[Name(u[i]).value]
    ensures r.Failure? ==> exists i :: 0 <= i < n && !(Name(u[i]).Some? && Name(u[i]).value in seqs)
                                       && r.error == KeyError(if Name(u[i]).Some? then Name(u[i]).value else "label")
                                       && forall j :: 0 <= j < i ==> Name(u[j]).Some? && Name(u[j]).value in seqs
  {
    if n == 0 then Success([])
    else
      var prev := AttachUpTo(u, seqs, n - 1);
      if prev.Failure? then prev
      else if Name(u[n - 1]).None? then Failure(KeyError("label"))
      else if Name(u[n - 1]).value !in seqs then Failure(KeyError(Name(u[n - 1]).value))
      else Success(prev.value + [seqs[Name(u[n - 1]).value]])
  }

  /** The `muts` trait of node i: the differences with the parent's sequence, absent for the
      root (the placeholder above it has no `seq`) and for a branch with no difference. */
  function BranchMutations(u: Tree, bases: seq<string>, i: nat): (m: Option<seq<Mutation>>)
    requires ParentsInRange(u) && |bases| == |u| && i < |u|
    ensures m.Some? <==> u[i].parent >= 0 && Diff(bases[i], bases[u[i].parent]) != []
    ensures m.Some? ==> |m.value| > 0 && forall k :: 0 <= k < |m.value| ==> Witnessed(m.value[k], bases[i], bases[u[i].parent])
  {
    if u[i].parent < 0 then None
    else
      var d := Diff(bases[i], bases[u[i].parent]);
      if d == [] then None else Some(d)
  }

  /** The whole of `annotate_tree`: relationships from the labelled tree `ll`, the reconciled
      labels on `t` (at most `fuel` passes), then sequences and mutations on every node. */
  function AnnotateTree(t: Tree, ll: Tree, seqs: map<string, string>, fuel: nat): (r: Result<seq<Annotated>, Fault>)
    requires ParentsInRange(t) && ParentsInRange(ll)
    ensures r.Success? <==>
              && Relationships(ll).Success?
              && Reconcile(t, Relationships(ll).value, fuel).Success?
              && Named(Reconcile(t, Relationships(ll).value, fuel).value, seqs, |t|)
    ensures r.Success? ==>
              var u := Reconcile(t, Relationships(ll).value, fuel).value;
              && |r.value| == |t|
              && forall i :: 0 <= i < |t| ==>
                   && r.value[i].node == u[i]
                   && r.value[i].bases == seqs[Name(u[i]).value]
                   && (r.value[i].muts.Some? <==> t[i].parent >= 0 && Diff(r.value[i].bases, r.value[t[i].parent].bases) != [])
                   && (r.value[i].muts.Some? ==> r.value[i].muts.value == Diff(r.value[i].bases, r.value[t[i].parent].bases))
  {
    var rel :- Relationships(ll);
    var u :- Reconcile(t, rel, fuel);
    var bases :- AttachUpTo(u, seqs, |u|);
    Success(seq(|u|, i requires 0 <= i < |u| => Annotated(u[i], bases[i], BranchMutations(u, bases, i))))
  }

  /** On a target tree placed in the labelled tree by `sigma` (the same topology and tips,
      children in any order), annotation succeeds exactly when the name of every node's image
      has a sequence, and each node then carries the sequence of its image. */
  lemma AnnotateFollowsLabelledTree(t: Tree, ll: Tree, sigma: seq<nat>, seqs: map<string, string>, fuel: nat)
    requires WellFormed(t) && InternalHaveChildren(t) && Embeds(t, ll, sigma)
    requires WellFormed(ll) && AllInternalLabelled(ll) && DistinctNames(ll)
    requires fuel >= |t|
    ensures ParentsInRange(t) && ParentsInRange(ll)
    ensures AnnotateTree(t, ll, seqs, fuel).Success? <==> forall i :: 0 <= i < |t| ==> Name(ll[sigma[i]]).value in seqs
    ensures AnnotateTree(t, ll, seqs, fuel).Success? ==>
              forall i :: 0 <= i < |t| ==> AnnotateTree(t, ll, seqs, fuel).value[i].bases == seqs[Name(ll[sigma[i]]).value]
  {
    ReconcileRecoversLabels(t, ll, sigma, fuel);
    var u := Reconcile(t, Relationships(ll).value, fuel).value;
    assert forall i :: 0 <= i < |t| ==> Name(u[i]) == Name(ll[sigma[i]]);
  }

  /** Each recorded mutation list, replayed on the parent's sequence, gives the node's own
      sequence when the two have the same length. */
  lemma MutationsReplay(t: Tree, ll: Tree, seqs: map<string, string>, fuel: nat, i: nat)
    requires ParentsInRange(t) && ParentsInRange(ll)
    requires AnnotateTree(t, ll, seqs, fuel).Success?
    requires i < |t| && t[i].parent >= 0
    ensures var a := AnnotateTree(t, ll, seqs, fuel).value;
            |a[i].bases| == |a[t[i].parent].bases| ==>
              && InRange(if a[i].muts.Some? then a[i].muts.value else [], a[t[i].parent].bases)
              && ApplyAll(a[t[i].parent].bases, if a[i].muts.Some? then a[i].muts.value else []) == a[i].bases
  {
    var a := AnnotateTree(t, ll, seqs, fuel).value;
    var p := t[i].parent;
    if |a[i].bases| == |a[p].bases| {
      DiffReplaysChild(a[i].bases, a[p].bases);
      if a[i].muts.None? {
        DiffEmptyIffAgree(a[i].bases, a[p].bases);
        assert a[i].bases == a[p].bases;
      }
    }
  }
}

=== FILE: arena.dfy ===
/** A parsed tree as an arena: the nodes in baltic's `Objects` order, each holding the index of
    its parent. Parent -1 is baltic's placeholder above the root, which is not among the
    `Objects` and carries no traits (no label, no sequence). */
module Arena {
  import opened Wrappers

  /** A tip carries its name; an internal node is identified only by its `label` trait. */
  datatype Kind = Leaf(name: string) | Internal

  /** `nodeLabel` is the optional `traits['label']`. */
  datatype Node = Node(parent: int, kind: Kind, nodeLabel: Option<string>)

  type Tree = seq<Node>

  /** Every parent reference points into the arena or at the placeholder. */
  predicate ParentsInRange(t: Tree) {
    forall i :: 0 <= i < |t| ==> -1 <= t[i].parent < |t|
  }

  /** A tree as baltic builds it: preorder (a parent precedes its children) and only internal
      nodes have children. */
  predicate WellFormed(t: Tree) {
    forall i :: 0 <= i < |t| ==> -1 <= t[i].parent < i && (t[i].parent >= 0 ==> t[t[i].parent].kind.Internal?)
  }

  /** Every internal node has at least one child. */
  predicate InternalHaveChildren(t: Tree) {
    forall p :: 0 <= p < |t| && t[p].kind.Internal? ==> exists c :: 0 <= c < |t| && t[c].parent == p
  }

  /** The same arena up to labels: at every index the same parent index and the same kind (and
      so the same `Objects` order). Trees of one topology listed in different orders are
      related by `Relabel.Embeds` instead. */
  predicate SameShape(t: Tree, u: Tree) {
    |t| == |u| && forall i :: 0 <= i < |t| ==> t[i].parent == u[i].parent && t[i].kind == u[i].kind
  }

  /** The `name` lambda of `annotate_tree`: a tip's name, an internal node's label. None stands
      for the KeyError an unlabelled internal node raises. */
  function Name(n: Node): (r: Option<string>)
    ensures r.Some? <==> n.kind.Leaf? || n.nodeLabel.Some?
    ensures n.kind.Leaf? ==> r == Some(n.kind.name)
  {
    match n.kind
    case Leaf(name) => Some(name)
    case Internal => n.nodeLabel
  }

  predicate AllInternalLabelled(t: Tree) {
    forall i :: 0 <= i < |t| && t[i].kind.Internal? ==> t[i].nodeLabel.Some?
  }

  /** Renames one tip through `m`; internal nodes are untouched. */
  function RenameNode(n: Node, m: map<string, string>): Node
    requires n.kind.Leaf? ==> n.kind.name in m
  {
    match n.kind
    case Leaf(name) => n.(kind := Leaf(m[name]))
    case Internal => n
  }

  /** Whether node i is a tip whose name is not a key of `m`. */
  predicate UnknownTip(t: Tree, m: map<string, string>, i: nat)
    requires i < |t|
  {
    t[i].kind.Leaf? && t[i].kind.name !in m
  }

  /** The first tip from position `from` on whose name is not a key of `m`. */
  function FirstUnknownTip(t: Tree, m: map<string, string>, from: nat): (i: nat)
    requires from <= |t| && !forall j :: from <= j < |t| && t[j].kind.Leaf? ==> t[j].kind.name in m
    ensures from <= i < |t| && UnknownTip(t, m, i)
    ensures forall j :: from <= j < i ==> !UnknownTip(t, m, j)
    decreases |t| - from
  {
    if UnknownTip(t, m, from) then from else FirstUnknownTip(t, m, from + 1)
  }

  /** Every tip renamed through `m`, in `Objects` order; the first tip whose name is not a key
      of `m` raises a KeyError. */
  function RenameLeaves(t: Tree, m: map<string, string>): (r: Result<Tree, Fault>)
    ensures r.Success? <==> forall i :: 0 <= i < |t| && t[i].kind.Leaf? ==> t[i].kind.name in m
    ensures r.Success? ==> |r.value| == |t| && forall i :: 0 <= i < |t| ==>
              r.value[i].parent == t[i].parent && r.value[i].nodeLabel == t[i].nodeLabel
              && r.value[i].kind.Leaf? == t[i].kind.Leaf?
              && (t[i].kind.Leaf? ==> r.value[i].kind.name == m[t[i].kind.name])
    ensures r.Failure? ==> exists i :: 0 <= i < |t| && UnknownTip(t, m, i) && r.error == KeyError(t[i].kind.name)
                                       && forall j :: 0 <= j < i ==> !UnknownTip(t, m, j)
  {
    if forall i :: 0 <= i < |t| && t[i].kind.Leaf? ==> t[i].kind.name in m then
      Success(seq(|t|, i requires 0 <= i < |t| => RenameNode(t[i], m)))
    else
      Failure(KeyError(t[FirstUnknownTip(t, m, 0)].kind.name))
  }

  /** Renaming the tips through `fwd` and then through `back` restores the tree whenever `back`
      undoes `fwd` on every tip name. */
  lemma RenameLeavesRoundTrip(t: Tree, fwd: map<string, string>, back: map<string, string>)
    requires forall i :: 0 <= i < |t| && t[i].kind.Leaf? ==> t[i].kind.name in fwd
    requires forall x :: x in fwd ==> fwd[x] in back && back[fwd[x]] == x
    ensures RenameLeaves(t, fwd).Success?
    ensures RenameLeaves(RenameLeaves(t, fwd).value, back) == Success(t)
  {
    var u := RenameLeaves(t, fwd).value;
    forall i | 0 <= i < |u| && u[i].kind.Leaf?
      ensures u[i].kind.name in back
    {
      assert t[i].kind.Leaf?;
    }
    var w := RenameLeaves(u, back).value;
    forall i | 0 <= i < |t|
      ensures w[i] == t[i]
    {
      if t[i].kind.Leaf? {
        assert u[i].kind.Leaf? && u[i].kind.name == fwd[t[i].kind.name];
        assert w[i].kind.name == t[i].kind.name;
      }
    }
    assert |w| == |t|;
    assert w == t;
  }
}

=== FILE: assemble.dfy ===
/** The ancestral sequence assembler of `reconstruct_ancestral_states`: full-length sequences for
    the tips (their own bases at invariant columns, the external tool's call at variable ones)
    and for the internal nodes of the labelled tree (invariant columns from `base_seq`). */
module Assemble {
  import opened Wrappers
  import opened Rename
  import opened Arena

  // ---------------------------------------------------------------------------------------
  // helpers
  // ---------------------------------------------------------------------------------------

  /** Python's `s[k]` for an index known to be in range: a negative k counts from the end. */
  function PyAt(s: string, k: int): char
    requires -|s| <= k < |s|
  {
    if k >= 0 then s[k] else s[|s| + k]
  }

  /** Python's `s[k]`, an IndexError outside `-len(s) <= k < len(s)`. */
  function PyIndex(s: string, k: int): (r: Result<char, Fault>)
    ensures r.Success? <==> -|s| <= k < |s|
  {
    if -|s| <= k < |s| then Success(PyAt(s, k)) else Failure(IndexError(k))
  }

  /** The structural prefix the external tool gives its internal-node labels. */
  const InternalPrefix: string := "NODE_"

  /** Python's `sub in s` on strings. */
  predicate Contains(s: string, sub: string) {
    exists i :: 0 <= i <= |s| - |sub| && OccursAt(s, sub, i)
  }

  predicate OccursAt(s: string, sub: string, i: nat)
    requires i + |sub| <= |s|
  {
    s[i..i + |sub|] == sub
  }

  /** Line 87: a name without the internal prefix is a tip and is looked up in `oldNames`. */
  function OutputName(name: string, oldNames: map<string, string>): (r: Result<string, Fault>)
    ensures r.Failure? <==> !Contains(name, InternalPrefix) && name !in oldNames
  {
    if Contains(name, InternalPrefix) then Success(name)
    else if name in oldNames then Success(oldNames[name])
    else Failure(KeyError(name))
  }

  // ---------------------------------------------------------------------------------------
  // tip rows (lines 78-85)
  // ---------------------------------------------------------------------------------------

  /** A reconstructed row: its full sequence and the characters it appends to `base_seq`. */
  datatype RowOut = RowOut(bases: string, constant: string)

  /** Whether column j of a tip row can be filled: a variable column needs the tip's call string
      and a call at the 1-based code; every column needs the row to reach it. */
  predicate TipColumnOk(row: string, codes: seq<int>, calls: map<string, string>, name: string, j: nat)
    requires j < |codes|
  {
    j < |row| && (codes[j] > 0 ==> name in calls && codes[j] <= |calls[name]|)
  }

  /** One column of a tip row, with the exceptions in the order the source raises them. */
  function TipColumn(row: string, code: int, j: nat, calls: map<string, string>, name: string): (r: Result<char, Fault>)
    ensures r.Success? <==> j < |row| && (code > 0 ==> name in calls && code <= |calls[name]|)
  {
    if code > 0 then
      if name !in calls then Failure(KeyError(name))
      else if code - 1 >= |calls[name]| then Failure(IndexError(code - 1))
      else if j >= |row| then Failure(IndexError(j))
      else Success(calls[name][code - 1])
    else if j >= |row| then Failure(IndexError(j))
    else Success(row[j])
  }

  /** Columns 0..n-1 of a tip row, filled in order. */
  function TipColumns(row: string, codes: seq<int>, calls: map<string, string>, name: string, n: nat): (r: Result<RowOut, Fault>)
    requires n <= |codes|
    ensures r.Success? <==> forall j :: 0 <= j < n ==> TipColumnOk(row, codes, calls, name, j)
    ensures r.Success? ==> |r.value.bases| == n && |r.value.constant| == n
    ensures r.Success? ==> forall j :: 0 <= j < n ==>
              && TipColumnOk(row, codes, calls, name, j)
              && r.value.bases[j] == (if codes[j] > 0 then calls[name][codes[j] - 1] else row[j])
              && r.value.constant[j] == (if codes[j] > 0 then 'N' else row[j])
  {
    if n == 0 then Success(RowOut([], []))
    else
      var prev := TipColumns(row, codes, calls, name, n - 1);
      var c := TipColumn(row, codes[n - 1], n - 1, calls, name);
      assert c.Success? <==> TipColumnOk(row, codes, calls, name, n - 1);
      if prev.Failure? then Failure(prev.error)
      else if c.Failure? then Failure(c.error)
      else Success(RowOut(prev.value.bases + [c.value], prev.value.constant + [if codes[n - 1] > 0 then 'N' else c.value]))
  }

  /** A tip row with every cross-referenced column filled; columns past the cross-reference keep
      their bases. Fails exactly when some column cannot be filled. */
  function ReconstructTip(row: string, codes: seq<int>, calls: map<string, string>, name: string): (r: Result<RowOut, Fault>)
    ensures r.Success? <==> forall j :: 0 <= j < |codes| ==> TipColumnOk(row, codes, calls, name, j)
    ensures r.Success? ==> |codes| <= |row| && |r.value.bases| == |row| && |r.value.constant| == |codes|
    ensures r.Success? ==> forall j :: 0 <= j < |codes| && codes[j] <= 0 ==> r.value.bases[j] == row[j]
    ensures r.Success? ==> forall j :: 0 <= j < |codes| && codes[j] > 0 ==>
              name in calls && codes[j] <= |calls[name]| && r.value.bases[j] == calls[name][codes[j] - 1]
    ensures r.Success? ==> forall j :: |codes| <= j < |row| ==> r.value.bases[j] == row[j]
    ensures r.Success? ==> forall j :: 0 <= j < |codes| ==> r.value.constant[j] == (if codes[j] > 0 then 'N' else row[j])
  {
    var cols :- TipColumns(row, codes, calls, name, |codes|);
    assert |codes| > 0 ==> TipColumnOk(row, codes, calls, name, |codes| - 1);
    Success(RowOut(cols.bases + row[|codes|..], cols.constant))
  }

  // ---------------------------------------------------------------------------------------
  // internal nodes (line 92)
  // ---------------------------------------------------------------------------------------

  /** Whether column j of an internal node can be filled: an invariant column needs `base_seq`
      to reach it, any other column a call at `code - 1` with Python indexing. */
  predicate NodeColumnOk(baseSeq: string, codes: seq<int>, calls: map<string, string>, nodeId: string, j: nat)
    requires j < |codes|
  {
    if codes[j] == 0 then j < |baseSeq| else nodeId in calls && -|calls[nodeId]| <= codes[j] - 1 < |calls[nodeId]|
  }

  function NodeColumn(baseSeq: string, code: int, j: nat, calls: map<string, string>, nodeId: string): (r: Result<char, Fault>)
    ensures r.Success? <==> if code == 0 then j < |baseSeq| else nodeId in calls && -|calls[nodeId]| <= code - 1 < |calls[nodeId]|
  {
    if code == 0 then (if j < |baseSeq| then Success(baseSeq[j]) else Failure(IndexError(j)))
    else if nodeId !in calls then Failure(KeyError(nodeId))
    else PyIndex(calls[nodeId], code - 1)
  }

  function NodeColumns(baseSeq: string, codes: seq<int>, calls: map<string, string>, nodeId: string, n: nat): (r: Result<string, Fault>)
    requires n <= |codes|
    ensures r.Success? <==> forall j :: 0 <= j < n ==> NodeColumnOk(baseSeq, codes, calls, nodeId, j)
    ensures r.Success? ==> |r.value| == n && forall j :: 0 <= j < n ==>
              NodeColumnOk(baseSeq, codes, calls, nodeId, j) && r.value[j] == (if codes[j] == 0 then baseSeq[j] else PyAt(calls[nodeId], codes[j] - 1))
  {
    if n == 0 then Success([])
    else
      var prev := NodeColumns(baseSeq, codes, calls, nodeId, n - 1);
      var c := NodeColumn(baseSeq, codes[n - 1], n - 1, calls, nodeId);
      assert c.Success? <==> NodeColumnOk(baseSeq, codes, calls, nodeId, n - 1);
      if prev.Failure? then Failure(prev.error)
      else if c.Failure? then Failure(c.error)
      else Success(prev.value + [c.value])
  }

  /** The sequence of an internal node: one character per cross-reference entry. */
  function ReconstructInternal(baseSeq: string, codes: seq<int>, calls: map<string, string>, nodeId: string): (r: Result<string, Fault>)
    ensures r.Success? <==> forall j :: 0 <= j < |codes| ==> NodeColumnOk(baseSeq, codes, calls, nodeId, j)
    ensures r.Success? ==> |r.value| == |codes|
    ensures r.Success? ==> forall j :: 0 <= j < |codes| && codes[j] == 0 ==> j < |baseSeq| && r.value[j] == baseSeq[j]
    ensures r.Success? ==> forall j :: 0 <= j < |codes| && codes[j] > 0 ==>
              nodeId in calls && codes[j] <= |calls[nodeId]| && r.value[j] == calls[nodeId][codes[j] - 1]
    ensures r.Success? ==> forall j :: 0 <= j < |codes| && codes[j] < 0 ==>
              nodeId in calls && 1 - codes[j] <= |calls[nodeId]| && r.value[j] == calls[nodeId][|calls[nodeId]| + codes[j] - 1]
  {
    NodeColumns(baseSeq, codes, calls, nodeId, |codes|)
  }

  // ---------------------------------------------------------------------------------------
  // the whole alignment
  // ---------------------------------------------------------------------------------------

  /** The records written for the tips, and `base_seq` after every row has appended to it. */
  datatype TipPass = TipPass(records: seq<Record>, baseSeq: string)

  /** Whether row k can be reconstructed and named back. */
  predicate RowOk(rows: seq<Record>, codes: seq<int>, calls: map<string, string>, oldNames: map<string, string>, k: nat)
    requires k < |rows|
  {
    ReconstructTip(rows[k].bases, codes, calls, rows[k].id).Success? && OutputName(rows[k].id, oldNames).Success?
  }

  lemma RowsOkTail(rows: seq<Record>, codes: seq<int>, calls: map<string, string>, oldNames: map<string, string>)
    requires |rows| > 0
    ensures (forall k :: 0 <= k < |rows| ==> RowOk(rows, codes, calls, oldNames, k)) <==>
      RowOk(rows, codes, calls, oldNames, 0) && forall k :: 0 <= k < |rows| - 1 ==> RowOk(rows[1..], codes, calls, oldNames, k)
  {
    if RowOk(rows, codes, calls, oldNames, 0) && forall k :: 0 <= k < |rows| - 1 ==> RowOk(rows[1..], codes, calls, oldNames, k) {
      forall k | 0 <= k < |rows|
        ensures RowOk(rows, codes, calls, oldNames, k)
      {
        if k > 0 {
          assert rows[1..][k - 1] == rows[k];
          assert RowOk(rows[1..], codes, calls, oldNames, k - 1);
        }
      }
    }
    if forall k :: 0 <= k < |rows| ==> RowOk(rows, codes, calls, oldNames, k) {
      forall k | 0 <= k < |rows| - 1
        ensures RowOk(rows[1..], codes, calls, oldNames, k)
      {
        assert rows[1..][k] == rows[k + 1];
        assert RowOk(rows, codes, calls, oldNames, k + 1);
      }
    }
  }

  lemma MulStep(a: nat, b: nat)
    requires a > 0
    ensures a * b == b + (a - 1) * b
  {
  }

  /** Lines 73-88 over the renamed rows in order: reconstruct each row, name it back, write it.
      Every row appends one character per cross-reference entry to `base_seq`. */
  function AssembleTips(rows: seq<Record>, codes: seq<int>, calls: map<string, string>, oldNames: map<string, string>): (r: Result<TipPass, Fault>)
    ensures r.Success? <==> forall k :: 0 <= k < |rows| ==> RowOk(rows, codes, calls, oldNames, k)
    ensures r.Success? ==> |r.value.records| == |rows| && |r.value.baseSeq| == |rows| * |codes|
  {
    if |rows| == 0 then Success(TipPass([], []))
    else
      RowsOkTail(rows, codes, calls, oldNames);
      var out := ReconstructTip(rows[0].bases, codes, calls, rows[0].id);
      var name := OutputName(rows[0].id, oldNames);
      if out.Failure? then Failure(out.error)
      else if name.Failure? then Failure(name.error)
      else
        var rest := AssembleTips(rows[1..], codes, calls, oldNames);
        if rest.Failure? then Failure(rest.error)
        else
          MulStep(|rows|, |codes|);
          Success(TipPass([Record(name.value, out.value.bases)] + rest.value.records, out.value.constant + rest.value.baseSeq))
  }

  /** Row k is written under its restored name with its reconstructed bases. */
  lemma {:induction false} AssembleTipsRow(rows: seq<Record>, codes: seq<int>, calls: map<string, string>,
                                           oldNames: map<string, string>, k: nat)
    requires AssembleTips(rows, codes, calls, oldNames).Success? && k < |rows|
    ensures var r := AssembleTips(rows, codes, calls, oldNames).value;
            && RowOk(rows, codes, calls, oldNames, k)
            && Success(r.records[k].id) == OutputName(rows[k].id, oldNames)
            && r.records[k].bases == ReconstructTip(rows[k].bases, codes, calls, rows[k].id).value.bases
  {
    RowsOkTail(rows, codes, calls, oldNames);
    var r := AssembleTips(rows, codes, calls, oldNames).value;
    var rest := AssembleTips(rows[1..], codes, calls, oldNames).value;
    var out := ReconstructTip(rows[0].bases, codes, calls, rows[0].id).value;
    assert r.records == [Record(OutputName(rows[0].id, oldNames).value, out.bases)] + rest.records;
    if k > 0 {
      AssembleTipsRow(rows[1..], codes, calls, oldNames, k - 1);
      assert r.records[k] == rest.records[k - 1] && rows[k] == rows[1..][k - 1];
    }
  }

  /** Every row is written under its restored name with its reconstructed bases. */
  lemma AssembleTipsRows(rows: seq<Record>, codes: seq<int>, calls: map<string, string>, oldNames: map<string, string>)
    requires AssembleTips(rows, codes, calls, oldNames).Success?
    ensures var r := AssembleTips(rows, codes, calls, oldNames).value;
            forall k :: 0 <= k < |rows| ==>
              && RowOk(rows, codes, calls, oldNames, k)
              && Success(r.records[k].id) == OutputName(rows[k].id, oldNames)
              && r.records[k].bases == ReconstructTip(rows[k].bases, codes, calls, rows[k].id).value.bases
  {
    forall k | 0 <= k < |rows| {
      AssembleTipsRow(rows, codes, calls, oldNames, k);
    }
  }

  /** `base_seq` opens with the first row's contribution: its base at invariant columns, `N`
      elsewhere. */
  lemma AssembleTipsBaseSeq(rows: seq<Record>, codes: seq<int>, calls: map<string, string>, oldNames: map<string, string>)
    requires AssembleTips(rows, codes, calls, oldNames).Success? && |rows| > 0
    ensures var r := AssembleTips(rows, codes, calls, oldNames).value;
            forall j :: 0 <= j < |codes| ==> r.baseSeq[j] == (if codes[j] > 0 then 'N' else rows[0].bases[j])
  {
    RowsOkTail(rows, codes, calls, oldNames);
    var r := AssembleTips(rows, codes, calls, oldNames).value;
    var rest := AssembleTips(rows[1..], codes, calls, oldNames).value;
    var out := ReconstructTip(rows[0].bases, codes, calls, rows[0].id).value;
    assert r.baseSeq == out.constant + rest.baseSeq;
  }

  /** The labels of the internal nodes, in `Objects` order. */
  function InternalLabels(t: Tree): seq<string>
    requires AllInternalLabelled(t)
  {
    if |t| == 0 then []
    else
      LabelledTail(t);
      (if t[0].kind.Internal? then [t[0].nodeLabel.value] else []) + InternalLabels(t[1..])
  }

  lemma LabelledTail(t: Tree)
    requires |t| > 0
    ensures AllInternalLabelled(t) <==> (t[0].kind.Internal? ==> t[0].nodeLabel.Some?) && AllInternalLabelled(t[1..])
  {
    assert forall i :: 1 <= i < |t| ==> t[i] == t[1..][i - 1];
  }

  /** Whether every internal node of `t` can be reconstructed. */
  predicate InternalNodesOk(t: Tree, baseSeq: string, codes: seq<int>, calls: map<string, string>) {
    forall i :: 0 <= i < |t| && t[i].kind.Internal? ==>
      t[i].nodeLabel.Some? && ReconstructInternal(baseSeq, codes, calls, t[i].nodeLabel.value).Success?
  }

  lemma InternalNodesOkTail(t: Tree, baseSeq: string, codes: seq<int>, calls: map<string, string>)
    requires |t| > 0
    ensures InternalNodesOk(t, baseSeq, codes, calls) <==>
      && (t[0].kind.Internal? ==> t[0].nodeLabel.Some? && ReconstructInternal(baseSeq, codes, calls, t[0].nodeLabel.value).Success?)
      && InternalNodesOk(t[1..], baseSeq, codes, calls)
  {
    assert forall i :: 1 <= i < |t| ==> t[i] == t[1..][i - 1];
  }

  lemma IdsCons(r: Record, rest: seq<Record>)
    ensures Ids([r] + rest) == [r.id] + Ids(rest)
  {
  }

  /** Lines 91-92 over the labelled tree's internal nodes in `Objects` order; an internal node
      without a label raises the KeyError of `traits['label']`. */
  function AssembleInternal(t: Tree, baseSeq: string, codes: seq<int>, calls: map<string, string>): (r: Result<seq<Record>, Fault>)
    ensures r.Success? <==> InternalNodesOk(t, baseSeq, codes, calls)
    ensures r.Success? ==> AllInternalLabelled(t) && Ids(r.value) == InternalLabels(t)
    ensures r.Success? ==> forall k :: 0 <= k < |r.value| ==>
              ReconstructInternal(baseSeq, codes, calls, r.value[k].id) == Success(r.value[k].bases)
  {
    if |t| == 0 then Success([])
    else
      var rest := AssembleInternal(t[1..], baseSeq, codes, calls);
      InternalNodesOkTail(t, baseSeq, codes, calls);
      LabelledTail(t);
      if t[0].kind.Leaf? then
        rest
      else if t[0].nodeLabel.None? then
        Failure(KeyError("label"))
      else
        var s := ReconstructInternal(baseSeq, codes, calls, t[0].nodeLabel.value);
        if s.Failure? then Failure(s.error)
        else if rest.Failure? then rest
        else
          IdsCons(Record(t[0].nodeLabel.value, s.value), rest.value);
          Success([Record(t[0].nodeLabel.value, s.value)] + rest.value)
  }

  // ---------------------------------------------------------------------------------------
  // properties
  // ---------------------------------------------------------------------------------------

  /** Two `base_seq`s that agree on the invariant columns give every internal node the same
      sequence: `base_seq` is only read where the code is 0. */
  lemma {:induction false} NodeColumnsReadOnlyInvariantColumns(b1: string, b2: string, codes: seq<int>, calls: map<string, string>, nodeId: string, n: nat)
    requires n <= |codes|
    requires forall j :: 0 <= j < n && codes[j] == 0 ==> (j < |b1| <==> j < |b2|) && (j < |b1| ==> b1[j] == b2[j])
    ensures NodeColumns(b1, codes, calls, nodeId, n) == NodeColumns(b2, codes, calls, nodeId, n)
  {
    if n > 0 {
      NodeColumnsReadOnlyInvariantColumns(b1, b2, codes, calls, nodeId, n - 1);
    }
  }

  /** Every internal node takes its invariant columns from the FIRST row: the rows appended to
      `base_seq` after it lie beyond the columns the internal nodes read. */
  lemma InternalInvariantColumnsFromFirstRow(rows: seq<Record>, codes: seq<int>, calls: map<string, string>,
                                             oldNames: map<string, string>, t: Tree)
    requires |rows| > 0
    requires AssembleTips(rows, codes, calls, oldNames).Success?
    requires AssembleInternal(t, AssembleTips(rows, codes, calls, oldNames).value.baseSeq, codes, calls).Success?
    ensures var nodes := AssembleInternal(t, AssembleTips(rows, codes, calls, oldNames).value.baseSeq, codes, calls).value;
      forall k, j :: 0 <= k < |nodes| && 0 <= j < |codes| && codes[j] == 0 ==>
        j < |nodes[k].bases| && j < |rows[0].bases| && nodes[k].bases[j] == rows[0].bases[j]
  {
    var tips := AssembleTips(rows, codes, calls, oldNames).value;
    AssembleTipsRows(rows, codes, calls, oldNames);
    assert ReconstructTip(rows[0].bases, codes, calls, rows[0].id).Success?;
  }

  /** Where every row agrees on the invariant columns, the internal nodes carry that common
      base there, whichever row came first. */
  lemma InternalInvariantColumnsConsensus(rows: seq<Record>, codes: seq<int>, calls: map<string, string>,
                                          oldNames: map<string, string>, t: Tree)
    requires |rows| > 0
    requires forall k, j :: 0 <= k < |rows| && 0 <= j < |codes| && codes[j] == 0 ==>
               j < |rows[k].bases| && j < |rows[0].bases| && rows[k].bases[j] == rows[0].bases[j]
    requires AssembleTips(rows, codes, calls, oldNames).Success?
    requires AssembleInternal(t, AssembleTips(rows, codes, calls, oldNames).value.baseSeq, codes, calls).Success?
    ensures var nodes := AssembleInternal(t, AssembleTips(rows, codes, calls, oldNames).value.baseSeq, codes, calls).value;
      forall n, k, j :: 0 <= n < |nodes| && 0 <= k < |rows| && 0 <= j < |codes| && codes[j] == 0 ==>
        j < |nodes[n].bases| && j < |rows[k].bases| && nodes[n].bases[j] == rows[k].bases[j]
  {
    InternalInvariantColumnsFromFirstRow(rows, codes, calls, oldNames, t);
  }

  /** A tip row keeps its length, and an internal node has one column per cross-reference
      entry: all reconstructed sequences have the row length L exactly when the cross-reference
      has L entries. A shorter cross-reference is not rejected. */
  lemma ReconstructedLengths(rows: seq<Record>, codes: seq<int>, calls: map<string, string>,
                             oldNames: map<string, string>, t: Tree)
    requires AssembleTips(rows, codes, calls, oldNames).Success?
    requires AssembleInternal(t, AssembleTips(rows, codes, calls, oldNames).value.baseSeq, codes, calls).Success?
    ensures var tips := AssembleTips(rows, codes, calls, oldNames).value.records;
      && (forall k :: 0 <= k < |rows| ==> |tips[k].bases| == |rows[k].bases| >= |codes|)
      && forall n :: 0 <= n < |AssembleInternal(t, AssembleTips(rows, codes, calls, oldNames).value.baseSeq, codes, calls).value| ==>
           |AssembleInternal(t, AssembleTips(rows, codes, calls, oldNames).value.baseSeq, codes, calls).value[n].bases| == |codes|
  {
    var tips := AssembleTips(rows, codes, calls, oldNames).value.records;
    AssembleTipsRows(rows, codes, calls, oldNames);
    forall k | 0 <= k < |rows|
      ensures |tips[k].bases| == |rows[k].bases| >= |codes|
    {
      assert ReconstructTip(rows[k].bases, codes, calls, rows[k].id).Success?;
    }
  }
}

=== FILE: crossref.dfy ===
/** The position cross-reference: one line of comma-separated integers, one per alignment column.
    Code 0 marks an invariant column; code k > 0 points at column k (1-based) of a node's
    compacted variable-site string. The dictionary `{i: code}` the source builds has keys
    0..n-1, so it is represented here by the sequence of codes (index = key). */
module CrossRef {
  import opened Wrappers
  import opened Decimal

  // ---------------------------------------------------------------------------------------
  // str.split(',')
  // ---------------------------------------------------------------------------------------

  function CountCommas(s: string): nat {
    if |s| == 0 then 0 else (if s[0] == ',' then 1 else 0) + CountCommas(s[1..])
  }

  /** Python's `s.split(',')`: the maximal comma-free pieces, empty pieces included. */
  function Split(s: string): (parts: seq<string>)
    ensures |parts| == CountCommas(s) + 1
    ensures forall i :: 0 <= i < |parts| ==> ',' !in parts[i]
  {
    if |s| == 0 then [""]
    else
      var rest := Split(s[1..]);
      if s[0] == ',' then [""] + rest else [[s[0]] + rest[0]] + rest[1..]
  }

  /** `','.join(parts)`. */
  function JoinComma(parts: seq<string>): string
    requires |parts| >= 1
  {
    if |parts| == 1 then parts[0] else parts[0] + "," + JoinComma(parts[1..])
  }

  /** Joining the pieces gives back the line. */
  lemma {:induction false} JoinSplit(s: string)
    ensures JoinComma(Split(s)) == s
  {
    if |s| > 0 {
      JoinSplit(s[1..]);
      var rest := Split(s[1..]);
      if s[0] == ',' {
        assert ([""] + rest)[1..] == rest;
      } else if |rest| > 1 {
        assert ([[s[0]] + rest[0]] + rest[1..])[1..] == rest[1..];
      }
    }
  }

  lemma {:induction false} SplitComma(p: string, t: string)
    requires ',' !in p
    ensures Split(p + "," + t) == [p] + Split(t)
  {
    if |p| > 0 {
      SplitComma(p[1..], t);
      assert (p + "," + t)[1..] == p[1..] + "," + t;
      assert [p[0]] + p[1..] == p;
    } else {
      assert (p + "," + t)[1..] == t;
    }
  }

  lemma {:induction false} SplitCommaFree(p: string)
    requires ',' !in p
    ensures Split(p) == [p]
  {
    if |p| > 0 {
      SplitCommaFree(p[1..]);
      assert [p[0]] + p[1..] == p;
    }
  }

  /** Splitting a join of comma-free pieces gives back the pieces. */
  lemma {:induction false} SplitJoin(parts: seq<string>)
    requires |parts| >= 1
    requires forall i :: 0 <= i < |parts| ==> ',' !in parts[i]
    ensures Split(JoinComma(parts)) == parts
  {
    if |parts| == 1 {
      SplitCommaFree(parts[0]);
    } else {
      SplitJoin(parts[1..]);
      SplitComma(parts[0], JoinComma(parts[1..]));
      assert [parts[0]] + parts[1..] == parts;
    }
  }

  // ---------------------------------------------------------------------------------------
  // int(token)
  // ---------------------------------------------------------------------------------------

  /** The ASCII whitespace `int()` ignores around its argument. */
  predicate IsSpace(c: char) {
    c == ' ' || c == '\t' || c == '\n' || c == '\r' || c as int == 11 || c as int == 12
  }

  function TrimStart(s: string): string {
    if |s| > 0 && IsSpace(s[0]) then TrimStart(s[1..]) else s
  }

  function TrimEnd(s: string): string {
    if |s| > 0 && IsSpace(s[|s| - 1]) then TrimEnd(s[..|s| - 1]) else s
  }

  function Strip(s: string): string {
    TrimEnd(TrimStart(s))
  }

  /** Digits with single underscores between them, the grouping `int()` accepts ("1_000"):
      a digit, optionally followed by a further run, itself optionally preceded by one `_`. */
  predicate IsDigitRun(s: string) {
    && |s| >= 1
    && IsDigit(s[0])
    && (|s| == 1 || (s[1] != '_' && IsDigitRun(s[1..])) || (s[1] == '_' && IsDigitRun(s[2..])))
  }

  /** The digits of a run, underscores dropped. */
  function RunDigits(s: string): (r: string)
    requires IsDigitRun(s)
    ensures AllDigits(r)
  {
    if |s| == 1 then [s[0]]
    else if s[1] == '_' then [s[0]] + RunDigits(s[2..])
    else [s[0]] + RunDigits(s[1..])
  }

  /** The literals `int()` accepts once whitespace is stripped: one optional sign, then a digit run. */
  predicate IsIntLiteral(t: string) {
    IsDigitRun(t) || (|t| > 0 && (t[0] == '+' || t[0] == '-') && IsDigitRun(t[1..]))
  }

  /** Python's `int(token)` on a decimal string: surrounding whitespace is ignored, one optional
      sign, then a digit run; anything else is a ValueError carrying the token. */
  function ParseInt(token: string): (r: Result<int, Fault>)
    ensures r.Success? <==> IsIntLiteral(Strip(token))
    ensures r.Failure? ==> r.error == ValueError(token)
  {
    ReadSigned(Strip(token), token)
  }

  /** The stripped token `t`: one optional sign, then a digit run; only a leading `-` gives a
      negative value. */
  function ReadSigned(t: string, token: string): (r: Result<int, Fault>)
    ensures r.Success? <==> IsIntLiteral(t)
    ensures r.Failure? ==> r.error == ValueError(token)
    ensures r.Success? && r.value < 0 ==> t[0] == '-'
  {
    if |t| > 0 && (t[0] == '+' || t[0] == '-') then
      if IsDigitRun(t[1..]) then
        var v: int := DigitsValue(RunDigits(t[1..]));
        Success(if t[0] == '-' then -v else v)
      else Failure(ValueError(token))
    else if IsDigitRun(t) then Success(DigitsValue(RunDigits(t)))
    else Failure(ValueError(token))
  }

  /** Python's `str(x)` for any integer. */
  function IntToString(x: int): string {
    if x < 0 then "-" + NatToString(-x) else NatToString(x)
  }

  /** A plain digit string is a run of its own digits. */
  lemma {:induction false} DigitsAreRun(s: string)
    requires |s| >= 1 && AllDigits(s)
    ensures IsDigitRun(s) && RunDigits(s) == s
  {
    if |s| > 1 {
      DigitsAreRun(s[1..]);
      assert [s[0]] + s[1..] == s;
    }
  }

  lemma StripUnpadded(s: string, eol: string)
    requires |s| > 0 && !IsSpace(s[0]) && !IsSpace(s[|s| - 1])
    requires eol == "" || eol == "\n"
    ensures Strip(s + eol) == s
  {
    assert TrimStart(s + eol) == s + eol;
    if eol == "\n" {
      assert (s + eol)[|s + eol| - 1] == '\n';
      assert (s + eol)[..|s + eol| - 1] == s;
      assert TrimEnd(s + eol) == TrimEnd(s);
    } else {
      assert s + eol == s;
    }
  }

  /** A written integer reads back as itself once stripped. */
  lemma ReadSignedRoundTrip(x: int, token: string)
    ensures ReadSigned(IntToString(x), token) == Success(x)
  {
    var v: nat := if x < 0 then -x else x;
    var digits := NatToString(v);
    DecimalRoundTrip(v);
    DigitsAreRun(digits);
    if x < 0 {
      assert IntToString(x)[1..] == digits;
    }
  }

  /** `int()` reads back what `str()` wrote, with or without a line terminator after it. */
  lemma ParseIntRoundTrip(x: int, eol: string)
    requires eol == "" || eol == "\n"
    ensures ParseInt(IntToString(x) + eol) == Success(x)
  {
    var s := IntToString(x);
    var digits := NatToString(if x < 0 then -x else x);
    assert !IsSpace(digits[|digits| - 1]) && s[|s| - 1] == digits[|digits| - 1];
    StripUnpadded(s, eol);
    ReadSignedRoundTrip(x, s + eol);
  }

  // ---------------------------------------------------------------------------------------
  // the cross-reference line
  // ---------------------------------------------------------------------------------------

  /** `int` of every comma-separated token, in order; the first malformed token aborts. */
  function ParseTokens(tokens: seq<string>): (r: Result<seq<int>, Fault>)
    ensures r.Success? <==> forall i :: 0 <= i < |tokens| ==> ParseInt(tokens[i]).Success?
    ensures r.Success? ==> (|r.value| == |tokens|
              && forall i :: 0 <= i < |tokens| ==> ParseInt(tokens[i]) == Success(r.value[i]))
  {
    if |tokens| == 0 then Success([])
    else
      var x := ParseInt(tokens[0]);
      var rest := ParseTokens(tokens[1..]);
      if x.Failure? then Failure(x.error)
      else if rest.Failure? then rest
      else Success([x.value] + rest.value)
  }

  /** A failed parse reports the first malformed token, as `int()` raises on it. */
  lemma {:induction false} ParseTokensReportsFirstBadToken(tokens: seq<string>)
    requires ParseTokens(tokens).Failure?
    ensures exists i :: 0 <= i < |tokens| && ParseInt(tokens[i]).Failure?
              && ParseTokens(tokens).error == ValueError(tokens[i])
              && forall j :: 0 <= j < i ==> ParseInt(tokens[j]).Success?
  {
    if ParseInt(tokens[0]).Success? {
      ParseTokensReportsFirstBadToken(tokens[1..]);
      var i :| 0 <= i < |tokens[1..]| && ParseInt(tokens[1..][i]).Failure?
              && ParseTokens(tokens[1..]).error == ValueError(tokens[1..][i])
              && forall j :: 0 <= j < i ==> ParseInt(tokens[1..][j]).Success?;
      assert ParseTokens(tokens).error == ValueError(tokens[i + 1]);
      forall j | 0 <= j < i + 1
        ensures ParseInt(tokens[j]).Success?
      {
        if j > 0 {
          assert tokens[j] == tokens[1..][j - 1];
        }
      }
    }
  }

  /** Line 58: the codes of the cross-reference line, keyed 0..n-1 where n is the number of
      comma-separated tokens. */
  function ParseCrossRef(line: string): (r: Result<seq<int>, Fault>)
    ensures r.Success? ==> |r.value| == CountCommas(line) + 1
    ensures r.Success? ==> forall i :: 0 <= i < |r.value| ==> ParseInt(Split(line)[i]) == Success(r.value[i])
  {
    ParseTokens(Split(line))
  }

  /** The line as the external tool writes it: the codes in decimal, comma-separated. */
  function RenderCrossRef(codes: seq<int>): string
    requires |codes| >= 1
  {
    JoinComma(seq(|codes|, i requires 0 <= i < |codes| => IntToString(codes[i])))
  }

  /** Parsing a rendered line, as read with or without its newline, gives back the codes. */
  lemma CrossRefRoundTrip(codes: seq<int>, eol: string)
    requires |codes| >= 1
    requires eol == "" || eol == "\n"
    ensures ParseCrossRef(RenderCrossRef(codes) + eol) == Success(codes)
  {
    var tokens := seq(|codes|, i requires 0 <= i < |codes| => IntToString(codes[i]));
    forall i | 0 <= i < |tokens|
      ensures ',' !in tokens[i]
    {
      var digits := NatToString(if codes[i] < 0 then -codes[i] else codes[i]);
      assert forall j :: 0 <= j < |digits| ==> digits[j] != ',';
    }
    var withEol := tokens[|tokens| - 1 := tokens[|tokens| - 1] + eol];
    assert ',' !in eol;
    assert forall i :: 0 <= i < |withEol| ==> ',' !in withEol[i];
    JoinWithEol(tokens, eol);
    SplitJoin(withEol);
    forall i | 0 <= i < |withEol|
      ensures ParseInt(withEol[i]) == Success(codes[i])
    {
      if i == |withEol| - 1 {
        ParseIntRoundTrip(codes[i], eol);
      } else {
        ParseIntRoundTrip(codes[i], "");
        assert IntToString(codes[i]) + "" == IntToString(codes[i]);
      }
    }
    var r := ParseTokens(withEol);
    assert r.Success?;
    assert r.value == codes;
  }

  lemma {:induction false} JoinWithEol(parts: seq<string>, eol: string)
    requires |parts| >= 1
    ensures JoinComma(parts) + eol == JoinComma(parts[|parts| - 1 := parts[|parts| - 1] + eol])
  {
    if |parts| > 1 {
      JoinWithEol(parts[1..], eol);
      assert parts[|parts| - 1 := parts[|parts| - 1] + eol][1..]
          == parts[1..][|parts| - 2 := parts[1..][|parts| - 2] + eol];
    }
  }
}

=== FILE: decimal.dfy ===
/** Decimal rendering of naturals, as Python's `str(n)` and `'%d'` produce it, and its inverse. */
module Decimal {

  predicate IsDigit(c: char) {
    '0' <= c <= '9'
  }

  predicate AllDigits(s: string) {
    forall i :: 0 <= i < |s| ==> IsDigit(s[i])
  }

  function DigitValue(c: char): nat
    requires IsDigit(c)
  {
    c as int - '0' as int
  }

  function DigitChar(d: nat): (c: char)
    requires d < 10
    ensures IsDigit(c) && DigitValue(c) == d
  {
    ('0' as int + d) as char
  }

  /** The value of a string of decimal digits, most significant first (leading zeros allowed). */
  function DigitsValue(s: string): nat
    requires AllDigits(s)
  {
    if |s| == 0 then 0 else DigitsValue(s[..|s| - 1]) * 10 + DigitValue(s[|s| - 1])
  }

  /** Python's `str(n)` for a non-negative integer: at least one digit, no leading zero. */
  function NatToString(n: nat): (s: string)
    ensures 1 <= |s| && AllDigits(s)
    ensures |s| > 1 ==> s[0] != '0'
    ensures n == 0 <==> s == "0"
  {
    if n < 10 then [DigitChar(n)] else NatToString(n / 10) + [DigitChar(n % 10)]
  }

  /** Reading the digits back gives the number that was rendered. */
  lemma {:induction false} DecimalRoundTrip(n: nat)
    ensures DigitsValue(NatToString(n)) == n
  {
    if n >= 10 {
      var s := NatToString(n);
      assert s[..|s| - 1] == NatToString(n / 10);
      DecimalRoundTrip(n / 10);
    }
  }

  /** Distinct numbers render to distinct strings, so `str(i)` can key a map by position. */
  lemma NatToStringInjective(m: nat, n: nat)
    requires m != n
    ensures NatToString(m) != NatToString(n)
  {
    DecimalRoundTrip(m);
    DecimalRoundTrip(n);
  }

  /** `str(n)` differs from the rendering of every smaller index. */
  lemma NatToStringFresh(n: nat)
    ensures forall i: nat :: i < n ==> NatToString(i) != NatToString(n)
  {
    forall i: nat | i < n
      ensures NatToString(i) != NatToString(n)
    {
      NatToStringInjective(i, n);
    }
  }
}

=== FILE: fasta.dfy ===
/** FASTA as the pipeline writes and reads it line by line: the writer puts a `>`-header line and
    one sequence line per record; the reader of the external tool's compacted calls treats any
    line containing `>` as a header and binds every other line to the last header's name. */
module Fasta {
  import opened Wrappers
  import opened Rename

  /** The lines written for `records`: `>id` then the bases, for each record in order. */
  function FastaLines(records: seq<Record>): (lines: seq<string>)
    ensures |lines| == 2 * |records|
    ensures forall i :: 0 <= i < |records| ==> lines[2 * i] == ">" + records[i].id && lines[2 * i + 1] == records[i].bases
  {
    if |records| == 0 then [] else [">" + records[0].id, records[0].bases] + FastaLines(records[1..])
  }

  /** The reader loop from `lines` on, `name` being the header last seen (None before the first)
      and `calls` the dictionary so far. A header line binds `name` to the line minus its first
      character; any other line is stored under `name`, replacing what was there. */
  function ParseCallsFrom(lines: seq<string>, name: Option<string>, calls: map<string, string>): (r: Result<map<string, string>, Fault>)
    ensures r.Failure? <==> name.None? && |lines| > 0 && '>' !in lines[0]
    ensures r.Failure? ==> r.error == UnboundName
    ensures r.Success? ==> forall k :: k in r.value ==>
              k in calls || Some(k) == name || exists i :: 0 <= i < |lines| && '>' in lines[i] && lines[i][1..] == k
    decreases |lines|
  {
    if |lines| == 0 then Success(calls)
    else if '>' in lines[0] then ParseCallsFrom(lines[1..], Some(lines[0][1..]), calls)
    else if name.None? then Failure(UnboundName)
    else ParseCallsFrom(lines[1..], name, calls[name.value := lines[0]])
  }

  /** Lines 63-70: the compacted call strings of the external tool, keyed by node name. */
  function ParseCalls(lines: seq<string>): (r: Result<map<string, string>, Fault>)
    ensures r.Failure? <==> |lines| > 0 && '>' !in lines[0]
    ensures r.Success? ==> forall k :: k in r.value ==>
              exists i :: 0 <= i < |lines| && '>' in lines[i] && lines[i][1..] == k
  {
    ParseCallsFrom(lines, None, map[])
  }

  /** The dictionary a clean header/sequence listing denotes: a later record with the same id
      replaces an earlier one. */
  function RecordTable(records: seq<Record>, calls: map<string, string>): map<string, string>
    decreases |records|
  {
    if |records| == 0 then calls else RecordTable(records[1..], calls[records[0].id := records[0].bases])
  }

  /** Reading back what the writer produced recovers every record, provided no sequence line
      contains `>` (which would be taken for a header). */
  lemma {:induction false} ReadWrittenFasta(records: seq<Record>, name: Option<string>, calls: map<string, string>)
    requires forall i :: 0 <= i < |records| ==> '>' !in records[i].bases
    ensures ParseCallsFrom(FastaLines(records), name, calls) == Success(RecordTable(records, calls))
  {
    if |records| > 0 {
      var lines := FastaLines(records);
      assert lines[0] == ">" + records[0].id && '>' in lines[0];
      assert lines[0][1..] == records[0].id;
      assert lines[1..][1..] == FastaLines(records[1..]);
      ReadWrittenFasta(records[1..], Some(records[0].id), calls[records[0].id := records[0].bases]);
    }
  }

  /** Sequence lines read under one header each overwrite the entry, so the last one stays. */
  lemma {:induction false} SequenceLinesOverwrite(ls: seq<string>, key: string, calls: map<string, string>)
    requires |ls| > 0 && forall i :: 0 <= i < |ls| ==> '>' !in ls[i]
    ensures ParseCallsFrom(ls, Some(key), calls) == Success(calls[key := ls[|ls| - 1]])
    decreases |ls|
  {
    if |ls| == 1 {
      assert ls[1..] == [];
    } else {
      SequenceLinesOverwrite(ls[1..], key, calls[key := ls[0]]);
      assert calls[key := ls[0]][key := ls[|ls| - 1]] == calls[key := ls[|ls| - 1]];
    }
  }

  /** A record spread over several sequence lines keeps only its LAST line, whatever was read
      before it. */
  lemma MultiLineRecordKeepsLastLine(h: string, ls: seq<string>, name: Option<string>, calls: map<string, string>)
    requires '>' in h && |ls| > 0 && forall i :: 0 <= i < |ls| ==> '>' !in ls[i]
    ensures ParseCallsFrom([h] + ls, name, calls) == Success(calls[h[1..] := ls[|ls| - 1]])
  {
    assert ([h] + ls)[1..] == ls;
    SequenceLinesOverwrite(ls, h[1..], calls);
  }

  /** Lines 74-79: the renamed alignment read back line by line. A header line binds `name`;
      every other line is a row, paired with the name last bound. */
  function ReadRowsFrom(lines: seq<string>, name: Option<string>): (r: Result<seq<Record>, Fault>)
    ensures r.Failure? ==> r.error == UnboundName
    ensures r.Success? ==> |r.value| <= |lines|
    decreases |lines|
  {
    if |lines| == 0 then Success([])
    else if '>' in lines[0] then ReadRowsFrom(lines[1..], Some(lines[0][1..]))
    else if name.None? then Failure(UnboundName)
    else
      var rest :- ReadRowsFrom(lines[1..], name);
      Success([Record(name.value, lines[0])] + rest)
  }

  /** The renamed alignment as written reads back record for record, whatever name the reader
      had bound before, provided no sequence line contains `>`. */
  lemma {:induction false} ReadRowsOfWrittenFasta(records: seq<Record>, name: Option<string>)
    requires forall i :: 0 <= i < |records| ==> '>' !in records[i].bases
    ensures ReadRowsFrom(FastaLines(records), name) == Success(records)
  {
    if |records| > 0 {
      var lines := FastaLines(records);
      assert lines[0] == ">" + records[0].id && '>' in lines[0];
      assert lines[0][1..] == records[0].id;
      assert lines[1..][1..] == FastaLines(records[1..]);
      ReadRowsOfWrittenFasta(records[1..], Some(records[0].id));
      assert records == [Record(records[0].id, records[0].bases)] + records[1..];
    }
  }
}

=== FILE: mutations.dfy ===
/** The per-branch mutation list of `annotate_tree`: the two sequences of a node and its parent
    are compared site by site over their common length, and every differing site becomes a
    mutation written child-base, 1-based site, parent-base. */
module Mutations {
  import opened Wrappers
  import opened Decimal

  /** The base on the child, the 1-based site, the base on the parent. */
  datatype Mutation = Mutation(childBase: char, site: nat, parentBase: char)

  function Min(a: nat, b: nat): nat {
    if a <= b then a else b
  }

  /** Whether `m` is a true difference between `child` and `parent` at its site. */
  predicate Witnessed(m: Mutation, child: string, parent: string) {
    && 1 <= m.site <= |child| && m.site <= |parent|
    && child[m.site - 1] == m.childBase
    && parent[m.site - 1] == m.parentBase
    && m.childBase != m.parentBase
  }

  /** The differences among the first n sites, in site order. */
  function DiffUpTo(child: string, parent: string, n: nat): (ms: seq<Mutation>)
    requires n <= |child| && n <= |parent|
    ensures forall k :: 0 <= k < |ms| ==> Witnessed(ms[k], child, parent) && ms[k].site <= n
  {
    if n == 0 then []
    else
      var prev := DiffUpTo(child, parent, n - 1);
      if child[n - 1] != parent[n - 1] then prev + [Mutation(child[n - 1], n, parent[n - 1])] else prev
  }

  predicate Ascending(ms: seq<Mutation>) {
    forall k, l :: 0 <= k < l < |ms| ==> ms[k].site < ms[l].site
  }

  /** The mutations are listed in strictly increasing site order. */
  lemma {:induction false} DiffUpToAscending(child: string, parent: string, n: nat)
    requires n <= |child| && n <= |parent|
    ensures Ascending(DiffUpTo(child, parent, n))
  {
    if n > 0 {
      DiffUpToAscending(child, parent, n - 1);
      var prev := DiffUpTo(child, parent, n - 1);
      assert Ascending(prev);
      if child[n - 1] != parent[n - 1] {
        var ms := prev + [Mutation(child[n - 1], n, parent[n - 1])];
        assert DiffUpTo(child, parent, n) == ms;
        forall k, l | 0 <= k < l < |ms|
          ensures ms[k].site < ms[l].site
        {
          assert ms[k] == prev[k] && prev[k].site <= n - 1;
          if l < |prev| {
            assert ms[l] == prev[l];
            assert prev[k].site < prev[l].site;
          } else {
            assert ms[l].site == n;
          }
        }
      } else {
        assert DiffUpTo(child, parent, n) == prev;
      }
    }
  }

  /** Lines 191-197: `zip` stops at the shorter sequence, so only the common length is compared.
      Every entry is a true difference, and the sites strictly increase. */
  function Diff(child: string, parent: string): (ms: seq<Mutation>)
    ensures forall k :: 0 <= k < |ms| ==> Witnessed(ms[k], child, parent)
    ensures Ascending(ms)
  {
    DiffUpToAscending(child, parent, Min(|child|, |parent|));
    DiffUpTo(child, parent, Min(|child|, |parent|))
  }

  function Sites(ms: seq<Mutation>): set<nat> {
    set k | 0 <= k < |ms| :: ms[k].site
  }

  /** The sites listed are exactly the (1-based) positions among the first n where the two
      sequences differ. */
  lemma {:induction false} DiffUpToSites(child: string, parent: string, n: nat)
    requires n <= |child| && n <= |parent|
    ensures Sites(DiffUpTo(child, parent, n)) == set i | 0 <= i < n && child[i] != parent[i] :: i + 1
  {
    if n > 0 {
      DiffUpToSites(child, parent, n - 1);
      var prev := DiffUpTo(child, parent, n - 1);
      var ms := DiffUpTo(child, parent, n);
      if child[n - 1] != parent[n - 1] {
        assert ms == prev + [Mutation(child[n - 1], n, parent[n - 1])];
        assert Sites(ms) == Sites(prev) + {n} by {
          forall s | s in Sites(ms) ensures s in Sites(prev) + {n} {
            var k :| 0 <= k < |ms| && ms[k].site == s;
            if k < |prev| { assert prev[k] == ms[k]; }
          }
          forall s | s in Sites(prev) ensures s in Sites(ms) {
            var k :| 0 <= k < |prev| && prev[k].site == s;
            assert ms[k] == prev[k];
          }
          assert ms[|prev|].site == n;
        }
      }
    }
  }

  /** Every site is 1-based and lies within `s`. */
  predicate InRange(ms: seq<Mutation>, s: string) {
    forall k :: 0 <= k < |ms| ==> 1 <= ms[k].site <= |s|
  }

  /** The parent's sequence with every mutation's child base put at its site, in list order. */
  function ApplyAll(parent: string, ms: seq<Mutation>): (r: string)
    requires InRange(ms, parent)
    ensures |r| == |parent|
  {
    if |ms| == 0 then parent
    else
      var last := ms[|ms| - 1];
      ApplyAll(parent, ms[..|ms| - 1])[last.site - 1 := last.childBase]
  }

  /** Replaying the differences among the first n sites turns those sites of the parent's
      sequence into the child's and leaves the rest alone. */
  lemma {:induction false} ApplyDiffUpTo(child: string, parent: string, n: nat)
    requires |child| == |parent| && n <= |child|
    ensures InRange(DiffUpTo(child, parent, n), parent)
    ensures forall i :: 0 <= i < |parent| ==>
              ApplyAll(parent, DiffUpTo(child, parent, n))[i] == if i < n then child[i] else parent[i]
  {
    if n == 0 {
      assert DiffUpTo(child, parent, 0) == [];
      assert ApplyAll(parent, []) == parent;
    } else {
      ApplyDiffUpTo(child, parent, n - 1);
      var prev := DiffUpTo(child, parent, n - 1);
      var ms := DiffUpTo(child, parent, n);
      var before := ApplyAll(parent, prev);
      var after := ApplyAll(parent, ms);
      if child[n - 1] != parent[n - 1] {
        assert ms[..|ms| - 1] == prev;
        assert after == before[n - 1 := child[n - 1]];
      } else {
        assert ms == prev;
        assert after == before;
      }
      forall i | 0 <= i < |parent|
        ensures after[i] == if i < n then child[i] else parent[i]
      {
        if i != n - 1 {
          assert after[i] == before[i];
        }
      }
    }
  }

  /** The mutations of a branch are complete: applied to the parent's sequence they give the
      child's, when the two have the same length. */
  lemma DiffReplaysChild(child: string, parent: string)
    requires |child| == |parent|
    ensures InRange(Diff(child, parent), parent)
    ensures ApplyAll(parent, Diff(child, parent)) == child
  {
    ApplyDiffUpTo(child, parent, |child|);
  }

  /** A branch has no mutations exactly when the sequences agree over their common length. */
  lemma DiffEmptyIffAgree(child: string, parent: string)
    ensures Diff(child, parent) == [] <==> forall i :: 0 <= i < |child| && i < |parent| ==> child[i] == parent[i]
  {
    var n := Min(|child|, |parent|);
    DiffUpToSites(child, parent, n);
    if Diff(child, parent) == [] {
      forall i | 0 <= i < |child| && i < |parent|
        ensures child[i] == parent[i]
      {
        var differing := set j | 0 <= j < n && child[j] != parent[j] :: j + 1;
        assert Diff(child, parent) == DiffUpTo(child, parent, n);
        assert differing == {};
        assert child[i] != parent[i] ==> i + 1 in differing;
      }
    } else {
      var m := Diff(child, parent)[0];
      assert m.site in Sites(Diff(child, parent));
    }
  }

  // ---------------------------------------------------------------------------------------
  // the written form '%s%d%s'
  // ---------------------------------------------------------------------------------------

  /** Line 197: the child base, the site in decimal, the parent base. */
  function Render(m: Mutation): (s: string)
    ensures |s| >= 3 && s[0] == m.childBase && s[|s| - 1] == m.parentBase
    ensures AllDigits(s[1..|s| - 1])
  {
    [m.childBase] + NatToString(m.site) + [m.parentBase]
  }

  /** Reads a written mutation back: first and last characters are the bases, everything
      between them the site. */
  function ParseMutation(s: string): (r: Option<Mutation>)
    ensures r.Some? <==> |s| >= 3 && AllDigits(s[1..|s| - 1])
  {
    if |s| >= 3 && AllDigits(s[1..|s| - 1]) then Some(Mutation(s[0], DigitsValue(s[1..|s| - 1]), s[|s| - 1]))
    else None
  }

  /** The written form of a mutation reads back as that mutation. */
  lemma RenderRoundTrip(m: Mutation)
    ensures ParseMutation(Render(m)) == Some(m)
  {
    var s := Render(m);
    assert s[1..|s| - 1] == NatToString(m.site);
    DecimalRoundTrip(m.site);
  }

  /** Distinct mutations are written differently. */
  lemma RenderInjective(m: Mutation, m': Mutation)
    requires Render(m) == Render(m')
    ensures m == m'
  {
    RenderRoundTrip(m);
    RenderRoundTrip(m');
  }
}

=== FILE: pipeline.dfy ===
/** `reconstruct_ancestral_states` end to end, with its files as values: the alignment records and
    the tree in, the external tool's three outputs (cross-reference line, compacted calls, labelled
    tree) as parameters, and the written files out. */
module Pipeline {
  import opened Wrappers
  import opened Decimal
  import opened Sanitize
  import opened Rename
  import opened Arena
  import opened CrossRef
  import opened Fasta
  import opened Assemble

  /** What the run writes: the renamed alignment and tree handed to the external tool, the
      reconstructed alignment (tips, then internal nodes), and the labelled tree with its tips
      named back. */
  datatype Outputs = Outputs(renamedFasta: seq<string>, renamedTree: Tree, reconstructed: seq<Record>, labelledTree: Tree)

  /** Lines 16-94 in order; each step's exception aborts the run. A run succeeds only when
      every tip of the tree is an alignment id and both output files of the external tool
      parse; it then writes one record per alignment row and per internal node, and gives
      the labelled tree back with the same nodes. `RunSucceedsExactlyWhenStepsDo` gives the
      converse, and the lemmas below state each output. */
  function ReconstructAncestralStates(alignment: seq<Record>, tree: Tree, crossRefLine: string,
                                      mlLines: seq<string>, labelled: Tree): (r: Result<Outputs, Fault>)
    ensures r.Success? ==> forall i :: 0 <= i < |tree| && tree[i].kind.Leaf? ==> tree[i].kind.name in Ids(alignment)
    ensures r.Success? ==> ParseCrossRef(crossRefLine).Success? && ParseCalls(mlLines).Success?
    ensures r.Success? ==> AllInternalLabelled(labelled) && |r.value.reconstructed| == |alignment| + |InternalLabels(labelled)|
    ensures r.Success? ==> |r.value.labelledTree| == |labelled|
  {
    var a := Anonymise(alignment);
    var fasta := FastaLines(a.records);
    var renamed :- RenameLeaves(tree, a.maps.newNames);
    var codes :- ParseCrossRef(crossRefLine);
    var calls :- ParseCalls(mlLines);
    var rows :- ReadRowsFrom(fasta, None);
    RowsReadBack(alignment);
    var tips :- AssembleTips(rows, codes, calls, a.maps.oldNames);
    var nodes :- AssembleInternal(labelled, tips.baseSeq, codes, calls);
    var back :- RenameLeaves(labelled, a.maps.oldNames);
    Success(Outputs(fasta, renamed, tips.records + nodes, back))
  }

  // ---------------------------------------------------------------------------------------
  // properties
  // ---------------------------------------------------------------------------------------

  /** A decimal name never contains the internal-node prefix, so every anonymised tip is
      recognised as a tip when its name is restored. */
  lemma DigitsLackInternalPrefix(s: string)
    requires AllDigits(s)
    ensures !Contains(s, InternalPrefix)
  {
    forall i | 0 <= i <= |s| - |InternalPrefix|
      ensures !OccursAt(s, InternalPrefix, i)
    {
      assert IsDigit(s[i]);
      assert s[i..i + |InternalPrefix|][0] == s[i];
    }
  }

  /** The sanitised rows contain no `>`, so the renamed alignment reads back as written. */
  lemma RowsReadBack(alignment: seq<Record>)
    ensures ReadRowsFrom(FastaLines(Anonymise(alignment).records), None) == Success(Anonymise(alignment).records)
  {
    var recs := Anonymise(alignment).records;
    forall i | 0 <= i < |recs|
      ensures '>' !in recs[i].bases
    {
      SanitizedLacks(alignment[i].bases, '>');
    }
    ReadRowsOfWrittenFasta(recs, None);
  }

  /** A successful run parsed both files of the external tool, assembled the tips from the
      anonymised records as written and read back, assembled the labelled tree's internal
      nodes from the tips' `base_seq`, and wrote the tips first, then the internal nodes. */
  lemma SuccessfulRun(alignment: seq<Record>, tree: Tree, crossRefLine: string,
                      mlLines: seq<string>, labelled: Tree)
    requires ReconstructAncestralStates(alignment, tree, crossRefLine, mlLines, labelled).Success?
    ensures ParseCrossRef(crossRefLine).Success? && ParseCalls(mlLines).Success?
    ensures var a := Anonymise(alignment);
            var codes := ParseCrossRef(crossRefLine).value;
            var calls := ParseCalls(mlLines).value;
            var tips := AssembleTips(a.records, codes, calls, a.maps.oldNames);
            && tips.Success?
            && AssembleInternal(labelled, tips.value.baseSeq, codes, calls).Success?
            && |tips.value.records| == |alignment|
            && ReconstructAncestralStates(alignment, tree, crossRefLine, mlLines, labelled).value.reconstructed
               == tips.value.records + AssembleInternal(labelled, tips.value.baseSeq, codes, calls).value
            && RenameLeaves(labelled, a.maps.oldNames).Success?
            && ReconstructAncestralStates(alignment, tree, crossRefLine, mlLines, labelled).value.labelledTree
               == RenameLeaves(labelled, a.maps.oldNames).value
    ensures var a := Anonymise(alignment);
            var out := ReconstructAncestralStates(alignment, tree, crossRefLine, mlLines, labelled).value;
            && out.renamedFasta == FastaLines(a.records)
            && RenameLeaves(tree, a.maps.newNames).Success?
            && out.renamedTree == RenameLeaves(tree, a.maps.newNames).value
  {
    var a := Anonymise(alignment);
    var fasta := FastaLines(a.records);
    RowsReadBack(alignment);
    var renamed := RenameLeaves(tree, a.maps.newNames);
    var codes := ParseCrossRef(crossRefLine);
    var calls := ParseCalls(mlLines);
    assert renamed.Success? && codes.Success? && calls.Success?;
    var tips := AssembleTips(a.records, codes.value, calls.value, a.maps.oldNames);
    assert tips.Success?;
    var nodes := AssembleInternal(labelled, tips.value.baseSeq, codes.value, calls.value);
    assert nodes.Success?;
    var back := RenameLeaves(labelled, a.maps.oldNames);
    assert back.Success?;
    assert ReconstructAncestralStates(alignment, tree, crossRefLine, mlLines, labelled)
        == Success(Outputs(fasta, renamed.value, tips.value.records + nodes.value, back.value));
  }

  /** Every step of the run, the read-back of the renamed alignment aside (which always
      succeeds, by `RowsReadBack`): renaming the tree's tips, parsing both files of the external
      tool, rebuilding the tips and the labelled tree's internal nodes, and naming its tips back. */
  predicate StepsSucceed(alignment: seq<Record>, tree: Tree, crossRefLine: string,
                         mlLines: seq<string>, labelled: Tree)
  {
    var a := Anonymise(alignment);
    && RenameLeaves(tree, a.maps.newNames).Success?
    && ParseCrossRef(crossRefLine).Success?
    && ParseCalls(mlLines).Success?
    && var codes := ParseCrossRef(crossRefLine).value;
       var calls := ParseCalls(mlLines).value;
       var tips := AssembleTips(a.records, codes, calls, a.maps.oldNames);
       && tips.Success?
       && AssembleInternal(labelled, tips.value.baseSeq, codes, calls).Success?
       && RenameLeaves(labelled, a.maps.oldNames).Success?
  }

  /** A run succeeds exactly when each of its steps does: no step raises on its own, and no
      failure is left unreported. */
  lemma RunSucceedsExactlyWhenStepsDo(alignment: seq<Record>, tree: Tree, crossRefLine: string,
                                      mlLines: seq<string>, labelled: Tree)
    ensures ReconstructAncestralStates(alignment, tree, crossRefLine, mlLines, labelled).Success?
            <==> StepsSucceed(alignment, tree, crossRefLine, mlLines, labelled)
  {
    if ReconstructAncestralStates(alignment, tree, crossRefLine, mlLines, labelled).Success? {
      SuccessfulRun(alignment, tree, crossRefLine, mlLines, labelled);
    } else {
      RowsReadBack(alignment);
    }
  }

  /** The files handed to the external tool undo the anonymisation: the renamed alignment reads
      back as record k named `str(k)` with the k-th sequence sanitised, and the renamed tree,
      named back through `oldNames`, is the input tree. */
  lemma RenamedInputsRoundTrip(alignment: seq<Record>, tree: Tree, crossRefLine: string,
                               mlLines: seq<string>, labelled: Tree)
    requires ReconstructAncestralStates(alignment, tree, crossRefLine, mlLines, labelled).Success?
    ensures var out := ReconstructAncestralStates(alignment, tree, crossRefLine, mlLines, labelled).value;
            && ReadRowsFrom(out.renamedFasta, None).Success?
            && var rows := ReadRowsFrom(out.renamedFasta, None).value;
               && |rows| == |alignment|
               && (forall k :: 0 <= k < |alignment| ==>
                     rows[k] == Record(NatToString(k), SanitizeBases(alignment[k].bases)))
               && RenameLeaves(out.renamedTree, BuildNameMaps(Ids(alignment)).oldNames) == Success(tree)
  {
    SuccessfulRun(alignment, tree, crossRefLine, mlLines, labelled);
    RowsReadBack(alignment);
    TreeRenameRoundTrip(alignment, tree);
  }

  /** Every tip of the reconstructed alignment is written under its original id, and its
      invariant columns (and any columns past the cross-reference) hold its sanitised bases. */
  lemma TipsKeepNamesAndInvariantColumns(alignment: seq<Record>, tree: Tree, crossRefLine: string,
                                         mlLines: seq<string>, labelled: Tree)
    requires ReconstructAncestralStates(alignment, tree, crossRefLine, mlLines, labelled).Success?
    ensures ParseCrossRef(crossRefLine).Success?
    ensures var out := ReconstructAncestralStates(alignment, tree, crossRefLine, mlLines, labelled).value;
            var codes := ParseCrossRef(crossRefLine).value;
            |out.reconstructed| >= |alignment| &&
            forall k :: 0 <= k < |alignment| ==>
              && out.reconstructed[k].id == alignment[k].id
              && |out.reconstructed[k].bases| == |alignment[k].bases|
              && forall j :: 0 <= j < |alignment[k].bases| && (j >= |codes| || codes[j] <= 0) ==>
                   out.reconstructed[k].bases[j] == SanitizeBases(alignment[k].bases)[j]
  {
    SuccessfulRun(alignment, tree, crossRefLine, mlLines, labelled);
    var out := ReconstructAncestralStates(alignment, tree, crossRefLine, mlLines, labelled).value;
    var a := Anonymise(alignment);
    var codes := ParseCrossRef(crossRefLine).value;
    var calls := ParseCalls(mlLines).value;
    var tips := AssembleTips(a.records, codes, calls, a.maps.oldNames).value;
    AssembleTipsRows(a.records, codes, calls, a.maps.oldNames);
    OldNamesByPosition(Ids(alignment));
    forall k | 0 <= k < |alignment|
      ensures && out.reconstructed[k].id == alignment[k].id
              && |out.reconstructed[k].bases| == |alignment[k].bases|
              && forall j :: 0 <= j < |alignment[k].bases| && (j >= |codes| || codes[j] <= 0) ==>
                   out.reconstructed[k].bases[j] == SanitizeBases(alignment[k].bases)[j]
    {
      assert out.reconstructed[k] == tips.records[k];
      DigitsLackInternalPrefix(NatToString(k));
      var row := a.records[k];
      assert row == Record(NatToString(k), SanitizeBases(alignment[k].bases));
      var rt := ReconstructTip(row.bases, codes, calls, row.id);
      assert rt.Success?;
      assert tips.records[k].bases == rt.value.bases;
    }
  }

  /** The tips of the reconstructed alignment take their variable columns from the external
      tool's calls for the tip's anonymised name. */
  lemma TipsTakeVariableColumnsFromCalls(alignment: seq<Record>, tree: Tree, crossRefLine: string,
                                         mlLines: seq<string>, labelled: Tree)
    requires ReconstructAncestralStates(alignment, tree, crossRefLine, mlLines, labelled).Success?
    ensures ParseCrossRef(crossRefLine).Success? && ParseCalls(mlLines).Success?
    ensures var out := ReconstructAncestralStates(alignment, tree, crossRefLine, mlLines, labelled).value;
            var codes := ParseCrossRef(crossRefLine).value;
            var calls := ParseCalls(mlLines).value;
            |out.reconstructed| >= |alignment| &&
            forall k, j :: 0 <= k < |alignment| && 0 <= j < |codes| && codes[j] > 0 ==>
              && NatToString(k) in calls && codes[j] <= |calls[NatToString(k)]|
              && j < |out.reconstructed[k].bases|
              && out.reconstructed[k].bases[j] == calls[NatToString(k)][codes[j] - 1]
  {
    SuccessfulRun(alignment, tree, crossRefLine, mlLines, labelled);
    var out := ReconstructAncestralStates(alignment, tree, crossRefLine, mlLines, labelled).value;
    var a := Anonymise(alignment);
    var codes := ParseCrossRef(crossRefLine).value;
    var calls := ParseCalls(mlLines).value;
    var tips := AssembleTips(a.records, codes, calls, a.maps.oldNames).value;
    AssembleTipsRows(a.records, codes, calls, a.maps.oldNames);
    forall k, j | 0 <= k < |alignment| && 0 <= j < |codes| && codes[j] > 0
      ensures && NatToString(k) in calls && codes[j] <= |calls[NatToString(k)]|
              && j < |out.reconstructed[k].bases|
              && out.reconstructed[k].bases[j] == calls[NatToString(k)][codes[j] - 1]
    {
      assert out.reconstructed[k] == tips.records[k];
      var row := a.records[k];
      assert row.id == NatToString(k);
      var rt := ReconstructTip(row.bases, codes, calls, row.id);
      assert rt.Success?;
      assert tips.records[k].bases == rt.value.bases;
    }
  }

  /** The internal nodes follow the tips in the reconstructed alignment, one per internal node
      of the labelled tree, named by its label, with the invariant columns of the FIRST
      alignment record (sanitised) and one column per cross-reference entry. */
  lemma InternalNodesFromFirstRecord(alignment: seq<Record>, tree: Tree, crossRefLine: string,
                                     mlLines: seq<string>, labelled: Tree)
    requires ReconstructAncestralStates(alignment, tree, crossRefLine, mlLines, labelled).Success?
    requires |alignment| > 0
    ensures ParseCrossRef(crossRefLine).Success? && AllInternalLabelled(labelled)
    ensures var out := ReconstructAncestralStates(alignment, tree, crossRefLine, mlLines, labelled).value;
            var codes := ParseCrossRef(crossRefLine).value;
            && |out.reconstructed| >= |alignment|
            && Ids(out.reconstructed[|alignment|..]) == InternalLabels(labelled)
            && forall n :: |alignment| <= n < |out.reconstructed| ==>
                 && |out.reconstructed[n].bases| == |codes|
                 && forall j :: 0 <= j < |codes| && codes[j] == 0 ==>
                      j < |alignment[0].bases| && out.reconstructed[n].bases[j] == SanitizeBases(alignment[0].bases)[j]
  {
    SuccessfulRun(alignment, tree, crossRefLine, mlLines, labelled);
    var out := ReconstructAncestralStates(alignment, tree, crossRefLine, mlLines, labelled).value;
    var a := Anonymise(alignment);
    var codes := ParseCrossRef(crossRefLine).value;
    var calls := ParseCalls(mlLines).value;
    var tips := AssembleTips(a.records, codes, calls, a.maps.oldNames).value;
    var nodes := AssembleInternal(labelled, tips.baseSeq, codes, calls);
    assert out.reconstructed[|alignment|..] == nodes.value;
    InternalInvariantColumnsFromFirstRow(a.records, codes, calls, a.maps.oldNames, labelled);
    ReconstructedLengths(a.records, codes, calls, a.maps.oldNames, labelled);
    forall n | |alignment| <= n < |out.reconstructed|
      ensures out.reconstructed[n] == nodes.value[n - |alignment|]
    {
    }
  }

  /** Every tip of the labelled tree is one of the anonymised names, and the tree written back
      has it under the original id of the record with that index; nothing else changes. */
  lemma LabelledTreeNamedBack(alignment: seq<Record>, tree: Tree, crossRefLine: string,
                              mlLines: seq<string>, labelled: Tree)
    requires ReconstructAncestralStates(alignment, tree, crossRefLine, mlLines, labelled).Success?
    ensures var back := ReconstructAncestralStates(alignment, tree, crossRefLine, mlLines, labelled).value.labelledTree;
            && |back| == |labelled|
            && forall i :: 0 <= i < |labelled| ==>
                 && back[i].parent == labelled[i].parent && back[i].nodeLabel == labelled[i].nodeLabel
                 && back[i].kind.Leaf? == labelled[i].kind.Leaf?
                 && (labelled[i].kind.Leaf? ==> exists k :: 0 <= k < |alignment| && labelled[i].kind.name == NatToString(k)
                                                  && back[i].kind.name == alignment[k].id)
  {
    SuccessfulRun(alignment, tree, crossRefLine, mlLines, labelled);
    var back := ReconstructAncestralStates(alignment, tree, crossRefLine, mlLines, labelled).value.labelledTree;
    var m := BuildNameMaps(Ids(alignment));
    OldNamesKeys(Ids(alignment));
    OldNamesByPosition(Ids(alignment));
    forall i | 0 <= i < |labelled| && labelled[i].kind.Leaf?
      ensures exists k :: 0 <= k < |alignment| && labelled[i].kind.name == NatToString(k) && back[i].kind.name == alignment[k].id
    {
      assert labelled[i].kind.name in m.oldNames && IsIndexName(labelled[i].kind.name, |alignment|);
      var k :| 0 <= k < |alignment| && labelled[i].kind.name == NatToString(k);
      assert back[i].kind.name == alignment[k].id;
    }
  }

  /** Renaming the tree's tips to indices and back through `oldNames` restores the tree, for
      any tree whose tips all occur in the alignment (duplicated ids included). */
  lemma TreeRenameRoundTrip(alignment: seq<Record>, tree: Tree)
    requires forall i :: 0 <= i < |tree| && tree[i].kind.Leaf? ==> tree[i].kind.name in Ids(alignment)
    ensures var m := BuildNameMaps(Ids(alignment));
            && RenameLeaves(tree, m.newNames).Success?
            && RenameLeaves(RenameLeaves(tree, m.newNames).value, m.oldNames) == Success(tree)
  {
    var ids := Ids(alignment);
    var m := BuildNameMaps(ids);
    forall x | x in m.newNames
      ensures m.newNames[x] in m.oldNames && m.oldNames[m.newNames[x]] == x
    {
      NameMapsInverse(ids, x);
    }
    RenameLeavesRoundTrip(tree, m.newNames, m.oldNames);
  }

  /** A tree tip missing from the alignment aborts the run with the KeyError of the first such
      tip in `Objects` order, before anything of the external tool's output is read. */
  lemma UnknownTipAborts(alignment: seq<Record>, tree: Tree, crossRefLine: string,
                         mlLines: seq<string>, labelled: Tree, i: nat)
    requires i < |tree| && tree[i].kind.Leaf? && tree[i].kind.name !in Ids(alignment)
    ensures var r := ReconstructAncestralStates(alignment, tree, crossRefLine, mlLines, labelled);
            r.Failure? && exists k :: 0 <= k < |tree| && tree[k].kind.Leaf? && tree[k].kind.name !in Ids(alignment)
                                       && r.error == KeyError(tree[k].kind.name)
                                       && forall j :: 0 <= j < k ==> !(tree[j].kind.Leaf? && tree[j].kind.name !in Ids(alignment))
  {
    var a := Anonymise(alignment);
    var m := a.maps.newNames;
    assert forall x :: x in m <==> x in Ids(alignment);
    assert UnknownTip(tree, m, i);
    var r := RenameLeaves(tree, m);
    assert ReconstructAncestralStates(alignment, tree, crossRefLine, mlLines, labelled) == Failure(r.error);
    var k :| 0 <= k < |tree| && UnknownTip(tree, m, k) && r.error == KeyError(tree[k].kind.name)
             && forall j :: 0 <= j < k ==> !UnknownTip(tree, m, j);
    forall j | 0 <= j < k
      ensures !(tree[j].kind.Leaf? && tree[j].kind.name !in Ids(alignment))
    {
      assert !UnknownTip(tree, m, j);
    }
  }
}

=== FILE: relabel.dfy ===
/** The tree label reconciler of `annotate_tree`: internal-node labels are carried from the
    labelled tree onto a second tree with the same topology and tips (children listed in any
    order), through a map from a node's name to its parent's name, by repeated passes that push
    labels from children to parents. */
module Relabel {
  import opened Wrappers
  import opened Arena

  // ---------------------------------------------------------------------------------------
  // the relationship map (lines 172-176)
  // ---------------------------------------------------------------------------------------

  /** Whether node i of `ll` has a parent carrying a label (the placeholder above the root has none). */
  predicate HasLabelledParent(ll: Tree, i: nat)
    requires ParentsInRange(ll) && i < |ll|
  {
    ll[i].parent >= 0 && ll[ll[i].parent].nodeLabel.Some?
  }

  /** `name(k.parent)` for node i whose parent carries a label. */
  function ParentName(ll: Tree, i: nat): string
    requires ParentsInRange(ll) && i < |ll| && HasLabelledParent(ll, i)
  {
    var p := ll[ll[i].parent];
    assert Name(p).Some?;
    Name(p).value
  }

  /** Node i is the last among 0..n-1 that has a labelled parent and the name `key`. */
  predicate LastNamed(ll: Tree, n: nat, i: nat, key: string)
    requires ParentsInRange(ll) && n <= |ll| && i < n
  {
    && HasLabelledParent(ll, i)
    && Name(ll[i]) == Some(key)
    && forall j :: i < j < n && HasLabelledParent(ll, j) ==> Name(ll[j]) != Some(key)
  }

  /** The map after the loop has visited nodes 0..n-1: every node with a labelled parent maps
      its name to the parent's name, a later node overwriting an earlier one with the same name.
      An internal node without a label under a labelled parent raises the KeyError. */
  function RelationshipsUpTo(ll: Tree, n: nat): (r: Result<map<string, string>, Fault>)
    requires ParentsInRange(ll) && n <= |ll|
    ensures r.Success? <==> forall i :: 0 <= i < n && HasLabelledParent(ll, i) ==> Name(ll[i]).Some?
    ensures r.Success? ==> forall i :: 0 <= i < n && HasLabelledParent(ll, i) ==> Name(ll[i]).Some? && Name(ll[i]).value in r.value
    ensures r.Success? ==> LastWins(ll, n, r.value)
  {
    if n == 0 then Success(map[])
    else
      var prev := RelationshipsUpTo(ll, n - 1);
      var i := n - 1;
      if prev.Failure? then prev
      else
        LastWinsStep(ll, n, prev.value);
        if !HasLabelledParent(ll, i) then prev
        else if Name(ll[i]).None? then Failure(KeyError("label"))
        else Success(prev.value[Name(ll[i]).value := ParentName(ll, i)])
  }

  /** Every key of `m` is the name of a node among 0..n-1 with a labelled parent, and maps to
      the parent's name of the last such node. */
  predicate LastWins(ll: Tree, n: nat, m: map<string, string>)
    requires ParentsInRange(ll) && n <= |ll|
  {
    forall key :: key in m ==> exists i :: 0 <= i < n && LastNamed(ll, n, i, key) && m[key] == ParentName(ll, i)
  }

  /** One more node visited: it either leaves the map alone or becomes the last node with its name. */
  lemma LastWinsStep(ll: Tree, n: nat, m: map<string, string>)
    requires ParentsInRange(ll) && 0 < n <= |ll| && LastWins(ll, n - 1, m)
    ensures !HasLabelledParent(ll, n - 1) ==> LastWins(ll, n, m)
    ensures HasLabelledParent(ll, n - 1) && Name(ll[n - 1]).Some? ==>
              LastWins(ll, n, m[Name(ll[n - 1]).value := ParentName(ll, n - 1)])
  {
    var k := n - 1;
    if HasLabelledParent(ll, k) && Name(ll[k]).Some? {
      var m' := m[Name(ll[k]).value := ParentName(ll, k)];
      forall key | key in m'
        ensures exists i :: 0 <= i < n && LastNamed(ll, n, i, key) && m'[key] == ParentName(ll, i)
      {
        if key == Name(ll[k]).value {
          assert LastNamed(ll, n, k, key);
        } else {
          var i :| 0 <= i < k && LastNamed(ll, k, i, key) && m[key] == ParentName(ll, i);
          assert LastNamed(ll, n, i, key);
        }
      }
    } else if !HasLabelledParent(ll, k) {
      forall key | key in m
        ensures exists i :: 0 <= i < n && LastNamed(ll, n, i, key) && m[key] == ParentName(ll, i)
      {
        var i :| 0 <= i < k && LastNamed(ll, k, i, key) && m[key] == ParentName(ll, i);
        assert LastNamed(ll, n, i, key);
      }
    }
  }

  function Relationships(ll: Tree): Result<map<string, string>, Fault>
    requires ParentsInRange(ll)
  {
    RelationshipsUpTo(ll, |ll|)
  }

  /** No two nodes of a fully labelled tree share a name. */
  predicate DistinctNames(ll: Tree) {
    forall i, j :: 0 <= i < |ll| && 0 <= j < |ll| && i != j ==> Name(ll[i]) != Name(ll[j])
  }

  /** On a well-formed, fully labelled tree with distinct names the map is total on the
      non-root nodes and sends each node's name to its parent's label. */
  lemma RelationshipsOfLabelledTree(ll: Tree)
    requires WellFormed(ll) && AllInternalLabelled(ll) && DistinctNames(ll)
    ensures Relationships(ll).Success?
    ensures forall c :: 0 <= c < |ll| && ll[c].parent >= 0 ==>
              Name(ll[c]).Some? && Name(ll[c]).value in Relationships(ll).value
              && Relationships(ll).value[Name(ll[c]).value] == ll[ll[c].parent].nodeLabel.value
  {
    var rel := Relationships(ll).value;
    forall c | 0 <= c < |ll| && ll[c].parent >= 0
      ensures Name(ll[c]).Some? && Name(ll[c]).value in rel && rel[Name(ll[c]).value] == ll[ll[c].parent].nodeLabel.value
    {
      assert HasLabelledParent(ll, c);
      var i :| 0 <= i < |ll| && LastNamed(ll, |ll|, i, Name(ll[c]).value) && rel[Name(ll[c]).value] == ParentName(ll, i);
      assert i == c;
    }
  }

  // ---------------------------------------------------------------------------------------
  // reset and propagation (lines 178-184)
  // ---------------------------------------------------------------------------------------

  /** Every `label` trait of the target tree deleted. */
  function ClearLabels(t: Tree): (r: Tree)
    ensures SameShape(r, t)
    ensures forall i :: 0 <= i < |r| ==> r[i].nodeLabel.None?
  {
    seq(|t|, i requires 0 <= i < |t| => t[i].(nodeLabel := None))
  }

  /** Whether visiting node k pushes a label: the source's guard (an internal node with a label,
      or a tip) is exactly "the node has a name", and that name must be a key. A push onto the
      placeholder above the root is dropped, as nothing reads the placeholder's traits. */
  predicate Pushes(u: Tree, rel: map<string, string>, k: nat)
    requires k < |u|
  {
    Name(u[k]).Some? && Name(u[k]).value in rel && u[k].parent >= 0
  }

  /** One visit of the inner loop: the parent of node k takes the label `rel[name(k)]`,
      replacing whatever label it had; nothing else changes. */
  function PushLabel(u: Tree, rel: map<string, string>, k: nat): (r: Tree)
    requires ParentsInRange(u) && k < |u|
    ensures SameShape(r, u)
    ensures forall j :: 0 <= j < |u| && (j != u[k].parent || !Pushes(u, rel, k)) ==> r[j] == u[j]
    ensures Pushes(u, rel, k) ==> r[u[k].parent].nodeLabel == Some(rel[Name(u[k]).value])
  {
    if Pushes(u, rel, k) then u[u[k].parent := u[u[k].parent].(nodeLabel := Some(rel[Name(u[k]).value]))] else u
  }

  /** Every label present is a value of the relationship map. */
  predicate LabelsFrom(u: Tree, rel: map<string, string>) {
    forall i :: 0 <= i < |u| && u[i].nodeLabel.Some? ==> u[i].nodeLabel.value in rel.Values
  }

  /** Nodes 0..n-1 visited in order, each visit seeing the pushes of the earlier ones. */
  function PassUpTo(u: Tree, rel: map<string, string>, n: nat): (r: Tree)
    requires ParentsInRange(u) && n <= |u|
    ensures SameShape(r, u)
  {
    if n == 0 then u else PushLabel(PassUpTo(u, rel, n - 1), rel, n - 1)
  }

  function Pass(u: Tree, rel: map<string, string>): Tree
    requires ParentsInRange(u)
  {
    PassUpTo(u, rel, |u|)
  }

  /** The outer loop: pass after pass until every internal node has a label. The source's loop
      is unbounded; here each pass spends one unit of `fuel`, and running out is NoFixpoint. */
  function Propagate(u: Tree, rel: map<string, string>, fuel: nat): (r: Result<Tree, Fault>)
    requires ParentsInRange(u)
    ensures r.Success? ==> SameShape(r.value, u) && AllInternalLabelled(r.value)
    ensures r.Failure? ==> r.error == NoFixpoint && !AllInternalLabelled(u)
    decreases fuel
  {
    if AllInternalLabelled(u) then Success(u)
    else if fuel == 0 then Failure(NoFixpoint)
    else Propagate(Pass(u, rel), rel, fuel - 1)
  }

  /** Reset, then propagate. On success every internal node is labelled, the topology and tips
      are those of `t`, and every label is a value of `rel`. */
  function Reconcile(t: Tree, rel: map<string, string>, fuel: nat): (r: Result<Tree, Fault>)
    requires ParentsInRange(t)
    ensures r.Success? ==> SameShape(r.value, t) && AllInternalLabelled(r.value)
    ensures r.Failure? ==> r.error == NoFixpoint
  {
    Propagate(ClearLabels(t), rel, fuel)
  }

  // ---------------------------------------------------------------------------------------
  // properties
  // ---------------------------------------------------------------------------------------

  /** Because the reset comes first, the labels the target tree had before do not matter. */
  lemma ReconcileIgnoresPriorLabels(t: Tree, t': Tree, rel: map<string, string>, fuel: nat)
    requires ParentsInRange(t) && SameShape(t, t')
    ensures ParentsInRange(t')
    ensures Reconcile(t, rel, fuel) == Reconcile(t', rel, fuel)
  {
    assert ClearLabels(t) == ClearLabels(t');
  }

  /** Running the reconciler on its own output gives the same labels. */
  lemma ReconcileIdempotent(t: Tree, rel: map<string, string>, fuel: nat)
    requires ParentsInRange(t) && Reconcile(t, rel, fuel).Success?
    ensures ParentsInRange(Reconcile(t, rel, fuel).value)
    ensures Reconcile(Reconcile(t, rel, fuel).value, rel, fuel) == Reconcile(t, rel, fuel)
  {
    ReconcileIgnoresPriorLabels(t, Reconcile(t, rel, fuel).value, rel, fuel);
  }

  /** A pass only ever sets labels taken from the relationship map. */
  lemma {:induction false} PassUpToLabelsFrom(u: Tree, rel: map<string, string>, n: nat)
    requires ParentsInRange(u) && n <= |u| && LabelsFrom(u, rel)
    ensures LabelsFrom(PassUpTo(u, rel, n), rel)
  {
    if n > 0 {
      PassUpToLabelsFrom(u, rel, n - 1);
      var prev := PassUpTo(u, rel, n - 1);
      if Pushes(prev, rel, n - 1) {
        assert rel[Name(prev[n - 1]).value] in rel.Values;
      }
    }
  }

  lemma {:induction false} PropagateLabelsFrom(u: Tree, rel: map<string, string>, fuel: nat)
    requires ParentsInRange(u) && LabelsFrom(u, rel)
    ensures Propagate(u, rel, fuel).Success? ==> LabelsFrom(Propagate(u, rel, fuel).value, rel)
    decreases fuel
  {
    if !AllInternalLabelled(u) && fuel > 0 {
      PassUpToLabelsFrom(u, rel, |u|);
      PropagateLabelsFrom(Pass(u, rel), rel, fuel - 1);
    }
  }

  /** Every label the reconciler sets is a value of the relationship map: the reset removes
      the target tree's own labels, and each push takes its label from the map. */
  lemma ReconcileLabelsFromMap(t: Tree, rel: map<string, string>, fuel: nat)
    requires ParentsInRange(t)
    ensures Reconcile(t, rel, fuel).Success? ==> LabelsFrom(Reconcile(t, rel, fuel).value, rel)
  {
    PropagateLabelsFrom(ClearLabels(t), rel, fuel);
  }

  // ---------------------------------------------------------------------------------------
  // convergence on a tree with the labelled tree's topology
  // ---------------------------------------------------------------------------------------

  /** `sigma` places every node of `t` at a node of `ll` with the same role: a tip at the tip of
      the same name, an internal node at an internal node, the root at a root, and any other
      node's parent at its image's parent. The two trees may list children in different orders,
      so the same topology read from two files qualifies even when its `Objects` orders differ. */
  predicate Embeds(t: Tree, ll: Tree, sigma: seq<nat>) {
    && |sigma| == |t|
    && (forall i :: 0 <= i < |t| ==> sigma[i] < |ll| && t[i].kind == ll[sigma[i]].kind)
    && (forall i :: 0 <= i < |t| ==> -1 <= t[i].parent < |t| && (t[i].parent >= 0 <==> ll[sigma[i]].parent >= 0))
    && (forall i :: 0 <= i < |t| && t[i].parent >= 0 ==> ll[sigma[i]].parent == sigma[t[i].parent])
  }

  /** `rel` describes the labelled tree `ll`: every non-root node's name maps to its parent's
      label. */
  predicate Describes(rel: map<string, string>, ll: Tree) {
    && ParentsInRange(ll)
    && forall c :: 0 <= c < |ll| && ll[c].parent >= 0 ==>
         && Name(ll[c]).Some?
         && Name(ll[c]).value in rel
         && ll[ll[c].parent].nodeLabel.Some?
         && rel[Name(ll[c]).value] == ll[ll[c].parent].nodeLabel.value
  }

  /** Every label `u` carries is on an internal node and equals the label of that node's image. */
  predicate Agrees(u: Tree, ll: Tree, sigma: seq<nat>) {
    forall i :: 0 <= i < |u| && u[i].nodeLabel.Some? ==>
      && i < |sigma| && sigma[i] < |ll|
      && u[i].kind.Internal?
      && u[i].nodeLabel == ll[sigma[i]].nodeLabel
  }

  /** The invariant of propagation on a target `u` placed in `ll` by `sigma`. */
  predicate Tracks(u: Tree, rel: map<string, string>, ll: Tree, sigma: seq<nat>) {
    && WellFormed(u) && InternalHaveChildren(u)
    && Describes(rel, ll) && Embeds(u, ll, sigma) && Agrees(u, ll, sigma)
  }

  /** The shape predicates see only parents and kinds, so they carry over between trees of the
      same shape. */
  lemma ShapeTransfer(u: Tree, v: Tree, ll: Tree, sigma: seq<nat>)
    requires SameShape(u, v)
    ensures WellFormed(u) ==> WellFormed(v)
    ensures InternalHaveChildren(u) ==> InternalHaveChildren(v)
    ensures Embeds(u, ll, sigma) ==> Embeds(v, ll, sigma)
  {
    if InternalHaveChildren(u) {
      forall p | 0 <= p < |v| && v[p].kind.Internal?
        ensures exists c :: 0 <= c < |v| && v[c].parent == p
      {
        var c :| 0 <= c < |u| && u[c].parent == p;
        assert v[c].parent == p;
      }
    }
  }

  /** A named node of `u` has the name of its image. */
  lemma NameOfImage(u: Tree, ll: Tree, sigma: seq<nat>, k: nat)
    requires Embeds(u, ll, sigma) && Agrees(u, ll, sigma) && k < |u| && Name(u[k]).Some?
    ensures Name(u[k]) == Name(ll[sigma[k]])
  {
  }

  /** The number of internal nodes among 0..n-1 still without a label. */
  function Unlabelled(u: Tree, n: nat): (c: nat)
    requires n <= |u|
    ensures c <= n
  {
    if n == 0 then 0 else Unlabelled(u, n - 1) + (if u[n - 1].kind.Internal? && u[n - 1].nodeLabel.None? then 1 else 0)
  }

  /** A push during a pass over `u` sets the parent's label to `rel[name]`, which is the label
      of the parent's image. */
  lemma PushLabelAgrees(u: Tree, v: Tree, rel: map<string, string>, ll: Tree, sigma: seq<nat>, k: nat)
    requires Tracks(u, rel, ll, sigma) && SameShape(v, u) && Agrees(v, ll, sigma) && k < |v|
    ensures ParentsInRange(v) && Agrees(PushLabel(v, rel, k), ll, sigma)
  {
    if Pushes(v, rel, k) {
      assert v[k].kind == u[k].kind;
      assert Name(v[k]) == Name(ll[sigma[k]]);
      var p := v[k].parent;
      assert ll[sigma[k]].parent == sigma[p];
      assert u[p].kind.Internal?;
    }
  }

  lemma {:induction false} PassUpToAgrees(u: Tree, rel: map<string, string>, ll: Tree, sigma: seq<nat>, n: nat)
    requires Tracks(u, rel, ll, sigma) && n <= |u|
    ensures Agrees(PassUpTo(u, rel, n), ll, sigma)
  {
    if n > 0 {
      PassUpToAgrees(u, rel, ll, sigma, n - 1);
      var v := PassUpTo(u, rel, n - 1);
      PushLabelAgrees(u, v, rel, ll, sigma, n - 1);
      assert PassUpTo(u, rel, n) == PushLabel(v, rel, n - 1);
    }
  }

  /** A label present after visiting 0..m-1 is still present after visiting 0..n-1. */
  lemma {:induction false} PassUpToKeepsLabels(u: Tree, rel: map<string, string>, m: nat, n: nat)
    requires ParentsInRange(u) && m <= n <= |u|
    ensures forall i :: 0 <= i < |u| && PassUpTo(u, rel, m)[i].nodeLabel.Some? ==> PassUpTo(u, rel, n)[i].nodeLabel.Some?
  {
    if m < n {
      PassUpToKeepsLabels(u, rel, m, n - 1);
    }
  }

  /** In preorder, visiting nodes 0..n-1 can only push onto nodes before n-1, so the nodes from
      n on are as they were. */
  lemma {:induction false} PassUpToSuffix(u: Tree, rel: map<string, string>, n: nat)
    requires WellFormed(u) && n <= |u|
    ensures forall i :: n <= i < |u| ==> PassUpTo(u, rel, n)[i] == u[i]
  {
    if n > 0 {
      PassUpToSuffix(u, rel, n - 1);
    }
  }

  /** The last unlabelled internal node: every node after it is a tip or labelled. */
  lemma LastUnlabelled(u: Tree) returns (p: nat)
    requires !AllInternalLabelled(u)
    ensures p < |u| && u[p].kind.Internal? && u[p].nodeLabel.None?
    ensures forall j :: p < j < |u| ==> !(u[j].kind.Internal? && u[j].nodeLabel.None?)
  {
    p := |u| - 1;
    while !(u[p].kind.Internal? && u[p].nodeLabel.None?)
      invariant 0 <= p < |u|
      invariant forall j :: p < j < |u| ==> !(u[j].kind.Internal? && u[j].nodeLabel.None?)
      invariant exists j :: 0 <= j <= p && u[j].kind.Internal? && u[j].nodeLabel.None?
      decreases p
    {
      p := p - 1;
    }
  }

  /** A child of the last unlabelled internal node is a tip or labelled, and still so when its
      turn comes in the pass, so its visit pushes a label. */
  lemma ChildPushes(u: Tree, rel: map<string, string>, ll: Tree, sigma: seq<nat>, p: nat, c: nat)
    requires Tracks(u, rel, ll, sigma)
    requires p < c < |u| && u[c].parent == p
    requires forall j :: p < j < |u| ==> !(u[j].kind.Internal? && u[j].nodeLabel.None?)
    ensures Pushes(PassUpTo(u, rel, c), rel, c)
  {
    PassUpToSuffix(u, rel, c);
    assert PassUpTo(u, rel, c)[c] == u[c];
    NameOfImage(u, ll, sigma, c);
    assert ll[sigma[c]].parent >= 0;
  }

  /** A push during the pass labels the parent of the node visited. */
  lemma PushLabelsParent(u: Tree, rel: map<string, string>, c: nat)
    requires ParentsInRange(u) && c < |u| && Pushes(PassUpTo(u, rel, c), rel, c)
    ensures u[c].parent >= 0 && PassUpTo(u, rel, c + 1)[u[c].parent].nodeLabel.Some?
  {
    var v := PassUpTo(u, rel, c);
    assert v[c].parent == u[c].parent;
    assert PassUpTo(u, rel, c + 1) == PushLabel(v, rel, c);
  }

  /** A label set during the pass is still there when the pass ends. */
  lemma LabelSurvivesPass(u: Tree, rel: map<string, string>, m: nat, p: nat)
    requires ParentsInRange(u) && m <= |u| && p < |u| && PassUpTo(u, rel, m)[p].nodeLabel.Some?
    ensures Pass(u, rel)[p].nodeLabel.Some?
  {
    PassUpToKeepsLabels(u, rel, m, |u|);
  }

  /** A pass that starts short of the fixpoint labels at least one more internal node: the last
      unlabelled internal node has a child, after it in preorder, that is a tip or already
      labelled, and that child's visit pushes the label. */
  lemma PassProgresses(u: Tree, rel: map<string, string>, ll: Tree, sigma: seq<nat>) returns (p: nat)
    requires Tracks(u, rel, ll, sigma) && !AllInternalLabelled(u)
    ensures p < |u| && u[p].kind.Internal? && u[p].nodeLabel.None? && Pass(u, rel)[p].nodeLabel.Some?
    ensures forall j :: p < j < |u| ==> !(u[j].kind.Internal? && u[j].nodeLabel.None?)
  {
    p := LastUnlabelled(u);
    var c :| 0 <= c < |u| && u[c].parent == p;
    ChildPushes(u, rel, ll, sigma, p, c);
    PushLabelsParent(u, rel, c);
    LabelSurvivesPass(u, rel, c + 1, p);
  }

  /** With labels only ever added, and one node gained, fewer internal nodes lack a label. */
  lemma {:induction false} UnlabelledDecreases(u: Tree, v: Tree, p: nat, n: nat)
    requires SameShape(u, v) && n <= |u|
    requires forall i :: 0 <= i < |u| && u[i].nodeLabel.Some? ==> v[i].nodeLabel.Some?
    requires p < |u| && u[p].kind.Internal? && u[p].nodeLabel.None? && v[p].nodeLabel.Some?
    ensures Unlabelled(v, n) <= Unlabelled(u, n)
    ensures p < n ==> Unlabelled(v, n) < Unlabelled(u, n)
  {
    if n > 0 {
      UnlabelledDecreases(u, v, p, n - 1);
    }
  }

  /** One pass short of the fixpoint keeps the invariant and labels another node. */
  lemma PassStep(u: Tree, rel: map<string, string>, ll: Tree, sigma: seq<nat>)
    requires Tracks(u, rel, ll, sigma) && !AllInternalLabelled(u)
    ensures Tracks(Pass(u, rel), rel, ll, sigma)
    ensures Unlabelled(Pass(u, rel), |u|) < Unlabelled(u, |u|)
  {
    var p := PassProgresses(u, rel, ll, sigma);
    PassUpToKeepsLabels(u, rel, 0, |u|);
    assert PassUpTo(u, rel, 0) == u;
    UnlabelledDecreases(u, Pass(u, rel), p, |u|);
    PassUpToAgrees(u, rel, ll, sigma, |u|);
    ShapeTransfer(u, Pass(u, rel), ll, sigma);
  }

  /** Whether a propagation outcome is a fixpoint whose labels are those of the images in `ll`. */
  predicate Converged(r: Result<Tree, Fault>, ll: Tree, sigma: seq<nat>) {
    r.Success? && Embeds(r.value, ll, sigma) && Agrees(r.value, ll, sigma)
  }

  /** One unfolding of the outer loop short of the fixpoint, with the facts the next step needs. */
  lemma ConvergeStep(u: Tree, rel: map<string, string>, ll: Tree, sigma: seq<nat>, fuel: nat)
    requires Tracks(u, rel, ll, sigma)
    requires fuel >= Unlabelled(u, |u|) && !AllInternalLabelled(u)
    ensures fuel > 0 && Tracks(Pass(u, rel), rel, ll, sigma)
    ensures fuel - 1 >= Unlabelled(Pass(u, rel), |u|)
    ensures Propagate(u, rel, fuel) == Propagate(Pass(u, rel), rel, fuel - 1)
  {
    PassStep(u, rel, ll, sigma);
  }

  /** With at least as many passes as there are unlabelled internal nodes, propagation reaches
      the fixpoint, and every label it sets is the label of the node's image. */
  lemma {:induction false} PropagateConverges(u: Tree, rel: map<string, string>, ll: Tree, sigma: seq<nat>, fuel: nat)
    requires Tracks(u, rel, ll, sigma)
    requires fuel >= Unlabelled(u, |u|)
    ensures Converged(Propagate(u, rel, fuel), ll, sigma)
    decreases fuel
  {
    if !AllInternalLabelled(u) {
      ConvergeStep(u, rel, ll, sigma, fuel);
      PropagateConverges(Pass(u, rel), rel, ll, sigma, fuel - 1);
    }
  }

  /** The reconciler recovers the labelled tree's labels on any tree placed in it by `sigma`
      (the same topology and tips, children in any order), within as many passes as the tree
      has nodes, provided the labelled tree's names are distinct (so the relationship map is
      not ambiguous). */
  lemma ReconcileRecoversLabels(t: Tree, ll: Tree, sigma: seq<nat>, fuel: nat)
    requires WellFormed(t) && InternalHaveChildren(t) && Embeds(t, ll, sigma)
    requires WellFormed(ll) && AllInternalLabelled(ll) && DistinctNames(ll)
    requires fuel >= |t|
    ensures Relationships(ll).Success?
    ensures Reconcile(t, Relationships(ll).value, fuel).Success?
    ensures forall i :: 0 <= i < |t| && t[i].kind.Internal? ==>
              Reconcile(t, Relationships(ll).value, fuel).value[i].nodeLabel == ll[sigma[i]].nodeLabel
    ensures forall i :: 0 <= i < |t| && t[i].kind.Leaf? ==>
              Reconcile(t, Relationships(ll).value, fuel).value[i].nodeLabel.None?
  {
    RelationshipsOfLabelledTree(ll);
    var rel := Relationships(ll).value;
    assert Describes(rel, ll);
    ClearedTracks(t, rel, ll, sigma);
    PropagateConverges(ClearLabels(t), rel, ll, sigma, fuel);
    var w := Propagate(ClearLabels(t), rel, fuel).value;
    assert Reconcile(t, rel, fuel) == Success(w);
    FixpointLabels(t, w, ll, sigma);
  }

  /** The reset target meets the propagation invariant: no label left to disagree. */
  lemma ClearedTracks(t: Tree, rel: map<string, string>, ll: Tree, sigma: seq<nat>)
    requires WellFormed(t) && InternalHaveChildren(t) && Embeds(t, ll, sigma) && Describes(rel, ll)
    ensures Tracks(ClearLabels(t), rel, ll, sigma)
  {
    ShapeTransfer(t, ClearLabels(t), ll, sigma);
  }

  /** At an agreeing fixpoint every internal node carries its image's label and no tip has one. */
  lemma FixpointLabels(t: Tree, w: Tree, ll: Tree, sigma: seq<nat>)
    requires SameShape(w, t) && AllInternalLabelled(w) && Agrees(w, ll, sigma) && Embeds(t, ll, sigma)
    ensures forall i :: 0 <= i < |t| && t[i].kind.Internal? ==> w[i].nodeLabel == ll[sigma[i]].nodeLabel
    ensures forall i :: 0 <= i < |t| && t[i].kind.Leaf? ==> w[i].nodeLabel.None?
  {
    forall i | 0 <= i < |t| && t[i].kind.Internal?
      ensures w[i].nodeLabel == ll[sigma[i]].nodeLabel
    {
      assert w[i].kind.Internal? && w[i].nodeLabel.Some?;
    }
  }
}

=== FILE: rename.dfy ===
/** Identifier anonymisation: the enumerate loop of `reconstruct_ancestral_states` that gives the
    i-th alignment entry the id `str(i)`, sanitises its bases, and records `newNames`/`oldNames`. */
module Rename {
  import opened Decimal
  import opened Sanitize

  /** One FASTA entry: its identifier and its bases. */
  datatype Record = Record(id: string, bases: string)

  /** `newNames` maps an original id to its anonymised id; `oldNames` maps back. */
  datatype NameMaps = NameMaps(newNames: map<string, string>, oldNames: map<string, string>)

  /** The two dictionaries after the loop has run over `ids` in order. A repeated id is
      re-assigned, so `newNames` keeps the LAST position it occurs at. */
  function BuildNameMaps(ids: seq<string>): (m: NameMaps)
    ensures forall id :: id in m.newNames <==> id in ids
  {
    if |ids| == 0 then NameMaps(map[], map[])
    else
      var n := |ids| - 1;
      var prev := BuildNameMaps(ids[..n]);
      assert ids == ids[..n] + [ids[n]];
      NameMaps(prev.newNames[ids[n] := NatToString(n)], prev.oldNames[NatToString(n) := ids[n]])
  }

  /** `oldNames[str(i)]` is the i-th original id, even when ids repeat. */
  lemma {:induction false} OldNamesByPosition(ids: seq<string>)
    ensures var m := BuildNameMaps(ids);
      forall i: nat :: i < |ids| ==> NatToString(i) in m.oldNames && m.oldNames[NatToString(i)] == ids[i]
  {
    if |ids| > 0 {
      var n := |ids| - 1;
      OldNamesByPosition(ids[..n]);
      NatToStringFresh(n);
      var m := BuildNameMaps(ids);
      forall i: nat | i < |ids|
        ensures NatToString(i) in m.oldNames && m.oldNames[NatToString(i)] == ids[i]
      {
        if i < n {
          assert ids[..n][i] == ids[i];
        }
      }
    }
  }

  /** Whether `key` is one of the anonymised ids `str(0) .. str(count-1)`. */
  predicate IsIndexName(key: string, count: nat) {
    exists i: nat :: i < count && key == NatToString(i)
  }

  /** `oldNames` holds no key other than the anonymised ids `str(0) .. str(|ids|-1)`. */
  lemma {:induction false} OldNamesKeys(ids: seq<string>)
    ensures forall key :: key in BuildNameMaps(ids).oldNames ==> IsIndexName(key, |ids|)
  {
    if |ids| > 0 {
      var n := |ids| - 1;
      OldNamesKeys(ids[..n]);
      var prev := BuildNameMaps(ids[..n]).oldNames;
      assert BuildNameMaps(ids).oldNames == prev[NatToString(n) := ids[n]];
      forall key | key in BuildNameMaps(ids).oldNames
        ensures IsIndexName(key, |ids|)
      {
        if key != NatToString(n) {
          assert key in prev && IsIndexName(key, n);
        }
      }
    } else {
      assert BuildNameMaps(ids).oldNames == map[];
    }
  }

  /** `newNames[id]` is `str(i)` for the last position i holding `id`. */
  lemma {:induction false} NewNamesLastPosition(ids: seq<string>, id: string)
    requires id in ids
    ensures var m := BuildNameMaps(ids);
      exists i: nat :: i < |ids| && ids[i] == id && m.newNames[id] == NatToString(i)
        && forall j :: i < j < |ids| ==> ids[j] != id
  {
    var n := |ids| - 1;
    if ids[n] != id {
      assert ids == ids[..n] + [ids[n]];
      NewNamesLastPosition(ids[..n], id);
    }
  }

  /** `oldNames[newNames[id]] == id` for every input id, duplicates included. */
  lemma NameMapsInverse(ids: seq<string>, id: string)
    requires id in ids
    ensures var m := BuildNameMaps(ids);
      m.newNames[id] in m.oldNames && m.oldNames[m.newNames[id]] == id
  {
    NewNamesLastPosition(ids, id);
    OldNamesByPosition(ids);
  }

  /** The renamed, sanitised alignment that is written out for the external tool, with the maps. */
  datatype Anonymised = Anonymised(records: seq<Record>, maps: NameMaps)

  function Ids(records: seq<Record>): (ids: seq<string>)
    ensures |ids| == |records| && forall i :: 0 <= i < |records| ==> ids[i] == records[i].id
  {
    seq(|records|, i requires 0 <= i < |records| => records[i].id)
  }

  /** Lines 18-33: entry i becomes `Record(str(i), sanitised bases)` and the maps are recorded. */
  function Anonymise(records: seq<Record>): (a: Anonymised)
    ensures a.maps == BuildNameMaps(Ids(records))
    ensures |a.records| == |records|
    ensures forall i :: 0 <= i < |records| ==>
              a.records[i] == Record(NatToString(i), SanitizeBases(records[i].bases))
  {
    Anonymised(
      seq(|records|, i requires 0 <= i < |records| => Record(NatToString(i), SanitizeBases(records[i].bases))),
      BuildNameMaps(Ids(records)))
  }

  /** Anonymising and then looking the new id up in `oldNames` recovers every original id. */
  lemma AnonymiseRoundTrip(records: seq<Record>)
    ensures var a := Anonymise(records);
      forall i :: 0 <= i < |records| ==>
        a.records[i].id in a.maps.oldNames && a.maps.oldNames[a.records[i].id] == records[i].id
  {
    OldNamesByPosition(Ids(records));
  }
}

=== FILE: sanitize.dfy ===
/** The ambiguity collapse of `reconstruct_ancestral_states`: every character the pattern
    `[^ACTG\-Nactgn]` matches is replaced by `N`. */
module Sanitize {

  /** The characters the pattern does not match: the four bases, the gap and `N`, in either case. */
  predicate IsNucleotide(c: char) {
    c in "ACTG-Nactgn"
  }

  function Collapse(c: char): char {
    if IsNucleotide(c) then c else 'N'
  }

  /** One `re.sub` of the pattern with `N`. */
  function SanitizeBases(s: string): (r: string)
    ensures |r| == |s|
    ensures forall i :: 0 <= i < |r| ==> IsNucleotide(r[i])
    ensures forall i :: 0 <= i < |s| && IsNucleotide(s[i]) ==> r[i] == s[i]
    ensures forall i :: 0 <= i < |s| && !IsNucleotide(s[i]) ==> r[i] == 'N'
  {
    if |s| == 0 then [] else [Collapse(s[0])] + SanitizeBases(s[1..])
  }

  /** A string is left alone exactly when the pattern finds nothing in it. */
  lemma SanitizeFixesExactlyClean(s: string)
    ensures SanitizeBases(s) == s <==> forall i :: 0 <= i < |s| ==> IsNucleotide(s[i])
  {
    if SanitizeBases(s) == s {
      forall i | 0 <= i < |s|
        ensures IsNucleotide(s[i])
      {
        assert SanitizeBases(s)[i] == s[i];
      }
    }
  }

  /** The source repeats the substitution while the pattern still matches; after one
      substitution it no longer does, so a second application changes nothing. */
  lemma SanitizeIdempotent(s: string)
    ensures SanitizeBases(SanitizeBases(s)) == SanitizeBases(s)
  {
    SanitizeFixesExactlyClean(SanitizeBases(s));
  }

  /** A character outside the alphabet, such as the FASTA header mark `>`, never survives. */
  lemma SanitizedLacks(s: string, c: char)
    requires !IsNucleotide(c)
    ensures c !in SanitizeBases(s)
  {
  }
}

=== FILE: wrappers.dfy ===
/** Failure-compatible wrappers and the exceptions the modelled Python code can raise. */
module Wrappers {

  datatype Option<+T> = None | Some(value: T)

  /** Success carries the computed value; Failure the exception that aborts the run. */
  datatype Result<+T, +E> = Success(value: T) | Failure(error: E) {

    predicate IsFailure() {
      Failure?
    }

    function PropagateFailure<U>(): Result<U, E>
      requires Failure?
    {
      Failure(error)
    }

    function Extract(): T
      requires Success?
    {
      value
    }
  }

  /** The exceptions raised on the modelled paths. None of them is caught: each aborts the run. */
  datatype Fault =
    | KeyError(key: string)      // dict lookup of a missing key (a name, or the 'label' trait)
    | IndexError(index: int)     // string or list index out of range
    | ValueError(token: string)  // int() of a token that is not a decimal integer
    | UnboundName                // a sequence line read before any FASTA header bound `name`
    | NoFixpoint                 // label propagation still incomplete when the pass cap is spent
}
